=== FILE: README.md ===
# c_memory: a Dafny model of the remote-process memory engine

This project models `vision::memory::c_memory`, the external memory engine of vision_mt2.
The engine attaches to another Windows process by pid or by executable name. Through the
process handle it then:
- reads and writes bytes, C strings and fixed-width integers;
- queries and changes page protection, and allocates and frees remote memory;
- looks up loaded modules by case-insensitive name;
- scans memory for masked byte signatures in 4096-byte chunks;
- injects a library with a remote `LoadLibraryA` thread, and ejects one with `FreeLibrary`.

The model is functional. The engine object is the value `Engine(handle, pid)`, where handle
0 stands for a null `HANDLE`. The target process is an immutable `Target`, made of:
- a partial map from address to byte (the readable bytes) and the set of writable addresses;
- per-address page information (state and protection) as `VirtualQueryEx` reports it;
- the module snapshot in snapshot order, or `None` when the snapshot cannot be taken;
- the live remote allocations.

Process-wide operating-system state is the value `Os`. It holds the process snapshot, the
handle `OpenProcess` grants for each pid, and the handles the engine currently owns.

Each Win32 call becomes a total function of that state. `ReadProcessMemory` and
`WriteProcessMemory` transfer the longest accessible prefix. `VirtualQueryEx`,
`VirtualProtectEx` and `VirtualFreeEx` act on the page and allocation maps. Outcomes that
do not follow from the state are parameters of the operation: the address `VirtualAllocEx`
hands out, whether `GetProcAddress` resolves a symbol, whether `CreateRemoteThread` starts,
and the thread's exit code.

Modules, following the program's structure:
- `Win`: bytes, `DWORD`, `Option`, and the Win32 constants the engine uses.
- `Snapshot`: ASCII `tolower`, case-insensitive names, and the first-match search over a
  toolhelp snapshot.
- `TargetProcess`: the target state and the Win32 memory calls over it.
- `Session`: the `(handle, pid)` state machine. It covers attaching by pid and by name,
  closing, construction and destruction, and it tracks handle ownership.
- `MemoryIO`: the read and write helpers, the typed `read<T>`/`write<T>`, protection, query,
  allocation and freeing.
- `ModuleCatalog`: `get_module_base`, `get_module_size` and `get_loaded_modules`.
- `PatternScanner`: `pattern_compare`, `pattern_scan` and `pattern_scan_all`.
- `Injector`: `inject_dll` and `eject_dll`, each recorded as a trace of the
  allocation-relevant calls it makes.

The scanner keeps the strict loop guard `addr < end_address - pattern_size` of
`pattern_scan`. A range of exactly `pattern_size` bytes is therefore never examined, and the
scan returns 0 for it. The value 0 also means "not found", in the model as in `pattern_scan`.

A successful `VirtualAllocEx` with `MEM_COMMIT` commits its range: the pages take the
requested protection, read as zeros when that protection allows reading, and are writable
when it allows writing. A reservation alone maps the pages as `MEM_RESERVE` with neither
access. `VirtualFreeEx` with `MEM_RELEASE` turns the whole allocation back into free
address space. `VirtualProtectEx` sets the protection of its range and, with it, whether
the range is writable. Protections are classed by two masks: the `PAGE_*` values that allow
reading (`0xFE`: every base protection except `PAGE_NOACCESS`, since `PAGE_EXECUTE`
pages are readable on x86 and x64) and those `WriteProcessMemory` writes through (`0xFC`: every base
protection except `PAGE_NOACCESS` and `PAGE_READONLY`, since it lifts `PAGE_EXECUTE` and
`PAGE_EXECUTE_READ` for the duration of the write).

`read_string` is modelled as the code behaves. It reads exactly `max_length` bytes into a
zero-filled buffer of `max_length + 1` bytes. The result is the bytes before the first NUL,
and the buffer's extra byte is only the terminator. A read of `max_length + 1` bytes is not
what the code does.

## Model

| member | source | states |
|---|---|---|
| Session.New | vision_external/include/memory/c_memory.hpp:16 | a freshly constructed engine is not attached and has pid 0 |
| Session.IsAttached | vision_external/include/memory/c_memory.hpp:25 | `is_attached()`: the handle is not null |
| Session.AttachedOwnsHandle | vision_external/include/memory/c_memory.hpp:25 | while the object owns exactly its handle, it is attached iff it owns one handle, and then that handle is its own; detached, it owns none |
| Session.CloseProcess | vision_external/src/memory/c_memory.cpp:31-38 | afterwards the engine is detached. An attached engine is reset to handle 0 and pid 0 and gives up the handle it owned. A detached engine and the whole world are left unchanged, and the process list and `OpenProcess` outcomes are never touched |
| Session.Destroy | vision_external/include/memory/c_memory.hpp:17-19 | the destructor only releases handles. When the engine owned exactly its own handle, nothing is owned afterwards |
| Session.AttachToProcess | vision_external/src/memory/c_memory.cpp:17-29 | it succeeds iff `OpenProcess` grants a handle, and success is the same as being attached afterwards. On success the engine is `(granted handle, pid)`. On failure the world equals `CloseProcess` of the old world, i.e. detached with pid 0. Consistency and single-handle ownership are preserved |
| Session.OpenProcess | vision_external/src/memory/c_memory.cpp:20 | a nonzero handle is the one the OS grants for that pid; a pid the OS does not know gives 0 |
| Session.FindProcessId | vision_external/src/memory/c_memory.cpp:427-453 | the result is the pid of the first snapshot entry whose name equals the query case-insensitively. It is 0 when no entry matches or the snapshot fails |
| Session.AttachToProcessByName | vision_external/src/memory/c_memory.cpp:8-15 | it succeeds iff some process matches the name and `OpenProcess` grants a handle for the first match. When no process matches, it fails and leaves the old session and world untouched. When one matches, the outcome is exactly that of attaching to its pid, so a refused `OpenProcess` leaves the engine closed. On success the engine is attached to the first matching process. Consistency and ownership are preserved |
| Session.CloseIsIdempotent | vision_external/src/memory/c_memory.cpp:31-38 | closing twice is the same as closing once |
| Session.AttachAllKeepsOwnership | vision_external/src/memory/c_memory.cpp:17-29 | any sequence of attaches keeps the engine owning at most its current handle |
| Session.NoHandleLeaks | vision_external/include/memory/c_memory.hpp:17-19 | starting from a fresh engine, any sequence of attaches followed by destruction leaves no handle owned |
| Snapshot.FirstWhere | vision_external/src/memory/c_memory.cpp:233-249 | returns the index of the first entry passing the test, with no passing entry before it. It returns `None` iff no entry passes |
| TargetProcess.AccessiblePrefix | vision_external/src/memory/c_memory.cpp:47-48 | the transfer stops at the first inaccessible address. It covers all `n` bytes iff every address in the range is accessible |
| TargetProcess.ReadProcessMemory | vision_external/src/memory/c_memory.cpp:47-48 | every byte returned is the target's byte at that address. The full size is transferred iff the whole range is readable |
| TargetProcess.WriteProcessMemory | vision_external/src/memory/c_memory.cpp:79-80 | the transferred bytes land at their addresses and every other address is unchanged. The full size is transferred iff the whole range is writable. Only the byte map changes |
| TargetProcess.Store | vision_external/src/memory/c_memory.cpp:79-80 | after the store, the range holds the data and every address outside it keeps its old value or absence |
| TargetProcess.VirtualQueryEx | vision_external/src/memory/c_memory.cpp:129 | it answers iff the address is mapped, and then with that address's state and protection |
| TargetProcess.VirtualProtectEx | vision_external/src/memory/c_memory.cpp:103-104 | it succeeds iff the range is committed, and then returns the first page's old protection. The new protection is applied to the range only, and the range is writable afterwards iff the new protection allows writing. Page states, the page set, the bytes and everything outside the range are unchanged |
| TargetProcess.VirtualAllocEx | vision_external/src/memory/c_memory.cpp:142 | the region is recorded as an allocation with its size, type and protection. With `MEM_COMMIT` every page of the region is committed with the protection, holds 0 when the protection allows reading and is writable iff it allows writing. Reserve-only pages are mapped `MEM_RESERVE` and neither readable nor writable. Pages, bytes and write permissions outside the region and the module list are unchanged |
| TargetProcess.VirtualFreeEx | vision_external/src/memory/c_memory.cpp:158 | the allocation is dropped, its whole region becomes `MEM_FREE` with no bytes and no write permission, and nothing outside the region changes |
| MemoryIO.ReadMemory | vision_external/src/memory/c_memory.cpp:40-54 | it yields bytes iff attached and all `size` bytes are readable. The bytes are exactly the target's bytes at those addresses |
| MemoryIO.ReadBytes | vision_external/src/memory/c_memory.cpp:56-62 | it returns the `size` target bytes on success and the empty sequence on any failure |
| MemoryIO.UntilNul | vision_external/src/memory/c_memory.cpp:67 | the result is the longest NUL-free prefix: a prefix of the buffer containing no NUL, followed in the buffer by a NUL unless it is the whole buffer |
| MemoryIO.UntilNulStopsAtTerminator | vision_external/src/memory/c_memory.cpp:67 | any NUL-free prefix that is followed by a NUL (or is the whole buffer) is what the string constructor keeps |
| MemoryIO.ReadString | vision_external/src/memory/c_memory.cpp:64-70 | it returns `""` unless attached and `max_length` bytes are readable. Otherwise it returns at most `max_length` NUL-free bytes read from the address, and when the result is shorter than `max_length` the next target byte is NUL |
| MemoryIO.WriteMemory | vision_external/src/memory/c_memory.cpp:72-90 | it succeeds iff attached and the whole range is writable; `write_bytes` is the same call. On success the range holds the data. Addresses outside the range are never changed, and only the byte map can change |
| MemoryIO.WriteString | vision_external/src/memory/c_memory.cpp:92-94 | it writes `length + 1` bytes: it succeeds iff that range is writable, and then the string's bytes are followed by a NUL. Nothing outside the range changes |
| MemoryIO.WriteThenRead | vision_external/src/memory/c_memory.cpp:40-86 | a successful write read back over the same range yields exactly the written bytes |
| MemoryIO.WriteStringThenReadString | vision_external/src/memory/c_memory.cpp:64-94 | a NUL-free string of at most `max_length` bytes, written with its terminator, reads back unchanged when the rest of the `max_length` window is readable |
| MemoryIO.FromLittleEndian | vision_external/include/memory/c_memory.hpp:31-38 | the value of `n` little-endian bytes is below `256^n` |
| MemoryIO.ToLittleEndian | vision_external/include/memory/c_memory.hpp:45-48 | the byte image `write<T>` forwards to `write_memory`: exactly `width` bytes, which decode back to the value, so encoding a value that fits and decoding it gives the value back |
| MemoryIO.EncodeDecode | vision_external/include/memory/c_memory.hpp:31-48 | decoding `n` bytes and re-encoding them in `n` bytes gives the bytes back |
| MemoryIO.ReadUnsigned | vision_external/include/memory/c_memory.hpp:31-38 | `read<T>` yields a value iff reading exactly `sizeof(T)` bytes succeeds. That value fits the width, and its little-endian encoding is the bytes read |
| MemoryIO.WriteUnsigned | vision_external/include/memory/c_memory.hpp:45-48 | `write<T>` is `write_memory` of the value's `sizeof(T)` little-endian bytes. It succeeds iff attached and those bytes are writable, and `read<T>` at the same address then yields the value written. Addresses outside the range keep their bytes, and only the byte map can change |
| MemoryIO.QueryMemory | vision_external/src/memory/c_memory.cpp:122-134 | it yields page information iff attached and the address is mapped, and then it is that address's information |
| MemoryIO.ProtectThenQuery | vision_external/src/memory/c_memory.cpp:96-134 | after a successful `protect_memory`, `query_memory` of any address in the range reports the new protection and the page state it had before |
| MemoryIO.IsValidAddress | vision_external/src/memory/c_memory.cpp:407-410 | true iff attached and the query succeeds with state `MEM_COMMIT` |
| MemoryIO.ProtectMemory | vision_external/src/memory/c_memory.cpp:96-116 | it succeeds iff attached and the range is committed, where a zero size stands for the first address. Failure changes nothing. Success reports the old protection of the first page, sets the new one on the range, and makes the range writable iff the new protection allows writing. Pages and write permissions outside the range, the bytes, the modules and the allocations are unchanged, and no address changes validity |
| MemoryIO.UnprotectMemory | vision_external/src/memory/c_memory.cpp:118-120 | it succeeds under the same condition as `protect_memory`, and failure changes nothing. Success reports the first page's old protection and makes the range `PAGE_EXECUTE_READWRITE` and writable. Pages and write permissions outside the range and the bytes are unchanged |
| MemoryIO.ProtectThenRestore | vision_external/src/memory/c_memory.cpp:96-116 | protecting a range that has one protection, and whose writability follows that protection, and then restoring the reported old protection gives back the original target |
| MemoryIO.AllocateMemory | vision_external/src/memory/c_memory.cpp:136-150 | it returns a nonzero address iff attached, the size is nonzero, the type reserves or commits, and the granted address is nonzero, starts no live allocation and lies over free address space; that address is the grant. The allocation is recorded with the requested size, type and protection, whose defaults are `MEM_COMMIT \| MEM_RESERVE` and `PAGE_EXECUTE_READWRITE`. A committing allocation makes every address of the range valid with that protection; it reads back as zeros when the protection allows reading, each address is readable iff the protection allows reading and writable iff it allows writing. A reservation leaves the range invalid and inaccessible. Nothing outside the range changes, and failure changes nothing |
| MemoryIO.FreshRegion | vision_external/src/memory/c_memory.cpp:136-150 | what a committing `VirtualAllocEx` makes observable through the engine: every address valid with the requested protection, a read of the range returning zeros, and a writable range, each as the protection allows, with each address readable iff the protection allows reading and writable iff it allows writing; a reservation leaves every address invalid |
| MemoryIO.FreeMemory | vision_external/src/memory/c_memory.cpp:152-165 | it succeeds iff attached, the address is a live allocation, the size is 0 and the type is `MEM_RELEASE` (the defaults). Success removes exactly that allocation and turns its whole region into free address space that is no longer valid, leaving everything outside the region as it was. Failure changes nothing |
| MemoryIO.AllocateThenFree | vision_external/include/memory/c_memory.hpp:60-62 | with the default arguments, a successful allocation records `MEM_COMMIT \| MEM_RESERVE` and `PAGE_EXECUTE_READWRITE`, and its range is committed and writable. Freeing it with the defaults succeeds, gives back the original allocations and leaves everything outside the range as it was. When the range was free address space before, the original target is restored exactly |
| MemoryIO.ExecuteRegionReadsZeros | vision_external/src/memory/c_memory.cpp:40-54 | a committed `PAGE_EXECUTE` allocation reads back as zeros before any write and is writable, so readability never depends on an earlier write |
| MemoryIO.WriteThroughExecuteRead | vision_external/src/memory/c_memory.cpp:72-90 | a committed `PAGE_EXECUTE_READ` allocation accepts a write of up to its size, and the written bytes read back, since `WriteProcessMemory` lifts the execute protection for the write |
| ModuleCatalog.LookupModule | vision_external/src/memory/c_memory.cpp:218-250 | the entry found is the first in snapshot order whose lowercased name equals the lowercased query, or the first entry when the query is empty. There is no result when detached, when the snapshot fails or when nothing matches |
| ModuleCatalog.ModuleBase | vision_external/src/memory/c_memory.cpp:218-250 | the base of the first matching module, or 0 when detached, when the snapshot fails or when nothing matches |
| ModuleCatalog.ModuleSize | vision_external/src/memory/c_memory.cpp:252-283 | the size of the first matching module, or 0 on the same failures |
| ModuleCatalog.LoadedModules | vision_external/src/memory/c_memory.cpp:285-309 | every module name in snapshot order, or empty when detached or when the snapshot fails |
| ModuleCatalog.EmptyQuerySelectsFirst | vision_external/src/memory/c_memory.cpp:241 | when attached and the snapshot holds a module, an empty module name selects the first module of the snapshot |
| ModuleCatalog.LookupIgnoresCase | vision_external/src/memory/c_memory.cpp:235-241 | two queries that differ only in ASCII letter case find the same module |
| ModuleCatalog.LoadedModulesAreFindable | vision_external/src/memory/c_memory.cpp:285-309 | every listed name, looked up again, finds a module with that name, at or before its own position |
| ModuleCatalog.ExampleLookups | vision_external/src/memory/c_memory.cpp:218-283 | on a two-module snapshot: mixed-case names find their module, the empty name finds the main module, and an absent name gives 0 |
| PatternScanner.PatternCompare | vision_external/src/memory/c_memory.cpp:455-462 | false iff some position below `min(pattern length, mask length)` has mask 'x' and a differing byte. Every other mask character is a wildcard |
| PatternScanner.WildcardExample | vision_external/src/memory/c_memory.cpp:455-462 | with mask "x?x" the middle byte is ignored and the outer ones are not, and an empty mask matches anything |
| PatternScanner.ScanStart | vision_external/src/memory/c_memory.cpp:174-176 | a nonzero start is kept. A start of 0 becomes the base of the first module in the snapshot, and stays 0 when detached or when there is no module |
| PatternScanner.ScanEnd | vision_external/src/memory/c_memory.cpp:178-180 | an end of 0 becomes the start plus the main module's size, so with both bounds 0 the scan covers exactly the main module; any other end is kept |
| PatternScanner.ExaminedWithin | vision_external/src/memory/c_memory.cpp:185-197 | every position the chunk loop examines lies in `[start, end - p]` |
| PatternScanner.ChunksCoverRange | vision_external/src/memory/c_memory.cpp:183-197 | when the range is readable, the chunks (stride `4096 - p`) examine exactly the positions `[start, end - p]`, and examine nothing when `start + p >= end`. No match straddling a chunk boundary is skipped |
| PatternScanner.BufferMatch | vision_external/src/memory/c_memory.cpp:192-193 | comparing at offset `i` of a buffer copied from `addr` is the same as matching in the target at `addr + i` |
| PatternScanner.AdvanceChunk | vision_external/src/memory/c_memory.cpp:185-190 | after a chunk is searched without a hit, or skipped because its read failed, the loop invariant holds at the next chunk start |
| PatternScanner.HitIsFirst | vision_external/src/memory/c_memory.cpp:192-195 | the first hit inside the current chunk is the first examined match of the whole scan, so returning it meets the scan's contract |
| PatternScanner.LoopExit | vision_external/src/memory/c_memory.cpp:185-199 | when the guard fails, no examined position matched, so returning 0 meets the scan's contract |
| PatternScanner.ScanResultInRange | vision_external/src/memory/c_memory.cpp:183-199 | a range of at most `p` bytes gives 0. On a readable longer range, the result is the lowest match in `[start, end - p]`, or 0 when there is none |
| PatternScanner.FindInChunk | vision_external/src/memory/c_memory.cpp:192-196 | a hit is the lowest matching offset of the chunk. A miss means no offset of the chunk matches |
| PatternScanner.PatternScan | vision_external/src/memory/c_memory.cpp:167-200 | detached gives 0. Otherwise the result is the first match among the examined positions of the defaulted range, or 0 when none matches; chunks whose read fails are skipped. On a readable range the result is the lowest match in `[start, end - p]`. The strict guard makes a range of exactly `p` bytes give 0 |
| PatternScanner.PatternScanAll | vision_external/src/memory/c_memory.cpp:202-216 | the results are strictly increasing, nonzero matches at or after the start, and the loop terminates. With an explicit end every result fits before it. With an explicit end, a nonzero start and a readable range, every match `a` with `a + p < end` is reported, overlapping occurrences included |
| PatternScanner.ScanAllStep | vision_external/src/memory/c_memory.cpp:202-216 | a hit found from the current start is recorded and the next scan starts one past it: the results stay increasing matches at or after the first start, within an explicit end, the defaulted end stays at least the pattern length, and in the complete case every match below the new start is reported |
| PatternScanner.ScanAllExit | vision_external/src/memory/c_memory.cpp:202-216 | when the scan from the current start finds nothing, the results gathered so far meet the whole contract of `pattern_scan_all`, completeness included |
| PatternScanner.EndFollowsStart | vision_external/src/memory/c_memory.cpp:178-179 | restarting one past a hit never lowers the end `pattern_scan` computes: an explicit end is kept, and a defaulted end moves up with the start |
| Injector.BracketIsBalanced | vision_external/src/memory/c_memory.cpp:311-367 | one allocation, then calls that neither allocate nor free, then the free of that allocation, is a balanced trace |
| Injector.InjectTrace | vision_external/src/memory/c_memory.cpp:319-358 | the calls after allocation form a balanced trace starting with the allocation; with the write and the thread it is the full four-call trace, with the write only it is allocate, write, free; a `LoadLibraryA` thread always follows the path write |
| Injector.InjectDll | vision_external/src/memory/c_memory.cpp:311-367 | detached means nothing is allocated and the target is unchanged. A call is made iff the allocator grants a fresh address over free space; otherwise injection fails with the target unchanged. The trace is balanced: every allocation is freed exactly once, and the free is the last call. It allocates `length + 1` bytes with `MEM_COMMIT \| MEM_RESERVE` and `PAGE_READWRITE`. Afterwards the buffer is free address space again, the live allocations and modules are as before, and nothing outside the buffer changed. It returns true iff the buffer is granted, the symbol resolves, the thread starts and the exit code is nonzero, and then the trace is allocate, write the path and its NUL, run `LoadLibraryA` on the buffer, free. When the symbol or the thread fails, the trace is allocate, write, free. A `LoadLibraryA` thread always follows the write of the path |
| Injector.PathWriteSucceeds | vision_external/src/memory/c_memory.cpp:319-328 | the buffer is committed `PAGE_READWRITE`, so writing the path and its NUL into a buffer just allocated for it succeeds |
| Injector.PathBufferReleased | vision_external/src/memory/c_memory.cpp:319-358 | allocating the path buffer at the grant, writing the path and freeing it succeeds, gives back the original allocations and modules, leaves the buffer as free address space and changes nothing outside it |
| Injector.SymbolFailureFreesAllocation | vision_external/src/memory/c_memory.cpp:331-338 | when `LoadLibraryA` cannot be resolved, the buffer is freed after the write and injection fails: the trace is allocate, write, free and the allocations are unchanged |
| Injector.InjectIntoEmptyTarget | vision_external/src/memory/c_memory.cpp:311-367 | injecting a one-byte path into a target whose only page is free succeeds with the full allocate, write, `LoadLibraryA`, free trace, and the page is free again afterwards with no allocation left |
| Injector.EjectDll | vision_external/src/memory/c_memory.cpp:369-405 | it never allocates or frees, and never changes the target. It succeeds iff attached, the module is found, the symbol resolves and the thread starts, and then the only call is a `FreeLibrary` thread on the module base |
| Injector.EjectIgnoresExitCode | vision_external/src/memory/c_memory.cpp:400-404 | the outcome of `eject_dll` does not depend on the remote thread's exit code |

## Left out

- The Win32 calls themselves are not modelled: `OpenProcess`, `ReadProcessMemory`, `WriteProcessMemory`, `VirtualQueryEx`, `VirtualProtectEx`, `VirtualAllocEx`, `VirtualFreeEx`, the toolhelp snapshot calls, `GetProcAddress`, `CreateRemoteThread`, `WaitForSingleObject` and `GetExitCodeThread`. They are total functions of the abstract state, or oracle parameters.
- The target process is a fixed value during a call. Another thread changing its memory concurrently is not modelled.
- Remote-thread execution is not modelled: the effect of `LoadLibraryA` or `FreeLibrary` in the target, the infinite wait, and closing the thread handle. Resolving `LoadLibraryA` locally and assuming the same address in the target is an ABI concern outside the model.
- `get_last_error_string` is left out: it only formats the system's error text.
- Logging is left out: it is console and file output with no effect on results.
- `get_process_handle` and `get_process_id` are left out: they read the engine's two fields, which are the fields of `Engine`.
- Address, size and `DWORD` widths are left out: addresses and sizes are unbounded naturals, and the pid is a natural. The scanner's unsigned wrap-around cases are excluded by preconditions instead.
- A process with pid 0 cannot be found by name, because 0 also means "not found". The model keeps this conflation.
- PatternScan: requires a pattern shorter than 4096 bytes and, when attached, a defaulted end at least the pattern length, because the stride and `end_address - pattern_size` wrap around otherwise.
- PatternScanAll: requires the same bounds as PatternScan for the first call: a pattern shorter than 4096 bytes and a defaulted end at least the pattern length. Every later call starts higher, so it meets them too. Completeness (every match is reported) is stated only for an explicit end, a nonzero start and a fully readable range. With `end_address == 0` each inner scan recomputes the end from its own start, and only soundness and ordering are stated.
- ReadUnsigned: `read<T>` is modelled for unsigned little-endian integer types only. Signed, floating-point and structure types are left out.
- WriteUnsigned: `write<T>` is modelled for unsigned little-endian integers that fit the width.
- FreeMemory: only release with size 0 succeeds. `MEM_DECOMMIT` and partial frees are left out.
- AllocateMemory: sizes are not rounded to pages, and the region covers exactly the requested bytes. The address handed out is an oracle parameter; the model only requires it to lie over free address space.
- ProtectMemory: a zero size is treated as covering the first address only: it succeeds when that address is committed, reports its protection and changes nothing. A range must be committed throughout. Protection constants are not validated.
- VirtualProtectEx: page granularity is not modelled. The model changes exactly the requested byte range, where Windows changes every page the range touches.
- VirtualProtectEx: a protection change affects writability but not readability. `PAGE_GUARD`, `PAGE_NOCACHE` and the other modifiers are not distinguished beyond the read and write classes. `WriteProcessMemory` lifting `PAGE_EXECUTE` and `PAGE_EXECUTE_READ` for a write is modelled as those pages being writable; the momentary protection change is not visible.
- InjectDll: a `Wrote` event is recorded only when the path write succeeds. In the model that write always succeeds, because nothing else changes the target between the allocation and the write, so the exit that frees the buffer after a failed write is marked unreachable, while the three other exits after the allocation (symbol failure, thread failure, completion) each free the buffer as the source does. `GetModuleHandleA("kernel32.dll")` is folded into the symbol-resolution oracle.
- PatternScan: with both bounds 0 and a failed module snapshot, the end stays 0 and `end_address - pattern_size` wraps around in the C++ code for a nonempty pattern. The precondition on the end excludes that case; with an empty pattern there is no wrap and the scan examines nothing.
- The UI, rendering, hook manager, DLL entry point and program startup are not part of this model.

=== FILE: injector.dfy ===
/** Library injection and ejection in `c_memory`: `inject_dll` writes a library path into
    a fresh allocation in the target and runs `LoadLibraryA` on it in a remote thread;
    `eject_dll` runs `FreeLibrary` on a module's base the same way. Outcomes that do not
    follow from the target's state are oracle inputs: the address `VirtualAllocEx` hands
    out, whether `GetProcAddress` resolves the loader symbol, whether
    `CreateRemoteThread` starts, and the exit code the thread leaves. */
module Injector {
  import opened Win
  import opened TargetProcess
  import opened Session
  import opened MemoryIO
  import opened ModuleCatalog

  /** The `kernel32.dll` export a remote thread starts at. */
  datatype Symbol = LoadLibraryA | FreeLibrary

  /** The operating-system calls that took effect and matter for resource discipline, in
      call order. */
  datatype Event =
    | Allocated(address: nat, size: nat, allocationType: Dword, protection: Dword)
    | Wrote(address: nat, data: seq<byte>)
    | RemoteThread(entry: Symbol, argument: nat)
    | Freed(address: nat)

  /** The oracle inputs of one injection or ejection. */
  datatype Remote = Remote(grant: nat, symbolResolved: bool, threadStarted: bool, exitCode: Dword)

  /** Result of `inject_dll` / `eject_dll`: the returned flag, the target afterwards and the
      calls made. */
  datatype RemoteOutcome = RemoteOutcome(ok: bool, target: Target, events: seq<Event>)

  function CountAllocated(events: seq<Event>, address: nat): nat {
    if |events| == 0 then 0
    else (if events[0].Allocated? && events[0].address == address then 1 else 0) + CountAllocated(events[1..], address)
  }

  function CountFreed(events: seq<Event>, address: nat): nat {
    if |events| == 0 then 0
    else (if events[0] == Freed(address) then 1 else 0) + CountFreed(events[1..], address)
  }

  /** Every allocation made is freed exactly once, after everything else, and nothing
      is freed that was not allocated. */
  ghost predicate Balanced(events: seq<Event>) {
    && (forall a :: CountFreed(events, a) == CountAllocated(events, a))
    && (forall a :: CountAllocated(events, a) <= 1)
    && (|events| > 0 ==> events[0].Allocated? && events[|events| - 1] == Freed(events[0].address))
  }

  /** An event that allocates or releases remote memory. */
  predicate Bookkeeping(ev: Event) {
    ev.Allocated? || ev.Freed?
  }

  lemma {:induction false} CountsAppend(a: seq<Event>, b: seq<Event>, x: nat)
    ensures CountAllocated(a + b, x) == CountAllocated(a, x) + CountAllocated(b, x)
    ensures CountFreed(a + b, x) == CountFreed(a, x) + CountFreed(b, x)
    decreases |a|
  {
    if |a| == 0 {
      assert a + b == b;
    } else {
      assert (a + b)[1..] == a[1..] + b;
      CountsAppend(a[1..], b, x);
    }
  }

  lemma {:induction false} NoBookkeepingCountsZero(events: seq<Event>, x: nat)
    requires forall i :: 0 <= i < |events| ==> !Bookkeeping(events[i])
    ensures CountAllocated(events, x) == 0 && CountFreed(events, x) == 0
    decreases |events|
  {
    if |events| > 0 {
      NoBookkeepingCountsZero(events[1..], x);
    }
  }

  /** A trace that allocates once, then makes calls that neither allocate nor free, then
      frees that allocation, is balanced. */
  lemma {:induction false} BracketIsBalanced(first: Event, middle: seq<Event>)
    requires first.Allocated?
    requires forall i :: 0 <= i < |middle| ==> !Bookkeeping(middle[i])
    ensures Balanced([first] + middle + [Freed(first.address)])
  {
    var events := [first] + middle + [Freed(first.address)];
    forall x: nat
      ensures CountFreed(events, x) == CountAllocated(events, x)
      ensures CountAllocated(events, x) <= 1
    {
      CountsAppend([first] + middle, [Freed(first.address)], x);
      CountsAppend([first], middle, x);
      NoBookkeepingCountsZero(middle, x);
      assert CountAllocated([Freed(first.address)], x) == 0;
      assert CountFreed([first], x) == 0;
    }
  }

  /** `VirtualAllocEx` hands out `remote.grant` for the path buffer of `inject_dll`:
      attached, a nonzero address that starts no live allocation, over address space
      that is neither reserved nor committed. */
  predicate PathBufferGranted(e: Engine, t: Target, path: seq<byte>, remote: Remote) {
    && IsAttached(e) && remote.grant != 0 && remote.grant !in t.allocations
    && Unallocated(t, remote.grant, remote.grant + |path| + 1)
  }

  /** The calls of an injection that got as far as starting the remote thread. */
  function FullTrace(path: seq<byte>, grant: nat): seq<Event> {
    [Allocated(grant, |path| + 1, MemCommit | MemReserve, PageReadWrite), Wrote(grant, path + [0]),
     RemoteThread(LoadLibraryA, grant), Freed(grant)]
  }

  /** The path buffer is committed `PAGE_READWRITE`, so writing the path into a buffer
      just allocated for it cannot fail. */
  lemma PathWriteSucceeds(e: Engine, t: Target, path: seq<byte>, grant: nat)
    requires AllocateMemory(e, t, |path| + 1, grant, MemCommit | MemReserve, PageReadWrite).address != 0
    ensures var alloc := AllocateMemory(e, t, |path| + 1, grant, MemCommit | MemReserve, PageReadWrite);
            WriteString(e, alloc.target, grant, path).ok
  {
    assert Commits(MemCommit | MemReserve) && AllowsWrite(PageReadWrite);
  }

  /** Allocating the path buffer: it lands at the granted address and changes nothing
      outside it. */
  lemma AllocateStep(e: Engine, t: Target, path: seq<byte>, remote: Remote)
    requires PathBufferGranted(e, t, path, remote)
    ensures var alloc := AllocateMemory(e, t, |path| + 1, remote.grant, MemCommit | MemReserve, PageReadWrite);
            && alloc.address == remote.grant
            && alloc.target.allocations == t.allocations[remote.grant := Allocation(|path| + 1, MemCommit | MemReserve, PageReadWrite)]
            && alloc.target.modules == t.modules
            && SameOutside(t, alloc.target, remote.grant, remote.grant + |path| + 1)
  {
    assert (MemCommit | MemReserve) & (MemCommit | MemReserve) != 0;
  }

  /** Writing the path changes only bytes inside the buffer. */
  lemma WriteStep(e: Engine, t: Target, address: nat, path: seq<byte>)
    ensures var written := WriteString(e, t, address, path);
            && written.target.allocations == t.allocations && written.target.modules == t.modules
            && SameOutside(t, written.target, address, address + |path| + 1)
  {
  }

  /** Releasing an allocation of `size` bytes with the default arguments. */
  lemma FreeStep(e: Engine, w: Target, g: nat, size: nat)
    requires IsAttached(e) && g in w.allocations && w.allocations[g].size == size
    ensures var freed := FreeMemory(e, w, g);
            && freed.ok && freed.target.allocations == w.allocations - {g} && freed.target.modules == w.modules
            && Released(freed.target, g, g + size) && SameOutside(w, freed.target, g, g + size)
  {
  }

  /** The buffer's life in the target: allocated, written, then freed, it ends as free
      address space, and nothing outside it has changed. */
  lemma PathBufferReleased(e: Engine, t: Target, path: seq<byte>, remote: Remote)
    requires PathBufferGranted(e, t, path, remote)
    ensures var alloc := AllocateMemory(e, t, |path| + 1, remote.grant, MemCommit | MemReserve, PageReadWrite);
            var written := WriteString(e, alloc.target, remote.grant, path);
            var freed := FreeMemory(e, written.target, remote.grant);
            && alloc.address == remote.grant
            && freed.ok
            && freed.target.allocations == t.allocations && freed.target.modules == t.modules
            && Released(freed.target, remote.grant, remote.grant + |path| + 1)
            && SameOutside(t, freed.target, remote.grant, remote.grant + |path| + 1)
  {
    var size := |path| + 1;
    var g := remote.grant;
    var alloc := AllocateMemory(e, t, size, g, MemCommit | MemReserve, PageReadWrite);
    AllocateStep(e, t, path, remote);
    var written := WriteString(e, alloc.target, g, path);
    WriteStep(e, alloc.target, g, path);
    FreeStep(e, written.target, g, size);
    var freed := FreeMemory(e, written.target, g);
    SameOutsideChain(t, alloc.target, written.target, freed.target, g, g + size);
    RecordThenDrop(t.allocations, g, Allocation(size, MemCommit | MemReserve, PageReadWrite));
  }

  /** The calls `inject_dll` makes once the path buffer is allocated: the path is written
      when `wrote`, the loader thread runs when `launched` as well, and the buffer is
      freed on every path. */
  function InjectTrace(path: seq<byte>, grant: nat, wrote: bool, launched: bool): (events: seq<Event>)
    ensures Balanced(events)
    ensures |events| > 0 && events[0] == Allocated(grant, |path| + 1, MemCommit | MemReserve, PageReadWrite)
    ensures wrote && launched ==> events == FullTrace(path, grant)
    ensures wrote && !launched ==> events == FullTrace(path, grant)[..2] + [Freed(grant)]
    ensures forall i :: 0 <= i < |events| && events[i].RemoteThread? ==>
              && events[i] == RemoteThread(LoadLibraryA, grant)
              && 0 < i && events[i - 1] == Wrote(grant, path + [0])
  {
    var trace := FullTrace(path, grant);
    if !wrote then
      BracketIsBalanced(trace[0], []);
      assert trace[..1] + [Freed(grant)] == [trace[0]] + [] + [Freed(grant)];
      trace[..1] + [Freed(grant)]
    else if !launched then
      BracketIsBalanced(trace[0], trace[1..2]);
      assert trace[..2] + [Freed(grant)] == [trace[0]] + trace[1..2] + [Freed(grant)];
      trace[..2] + [Freed(grant)]
    else
      BracketIsBalanced(trace[0], trace[1..3]);
      assert trace == [trace[0]] + trace[1..3] + [Freed(grant)];
      trace
  }

  /** `inject_dll`. */
  function InjectDll(e: Engine, t: Target, path: seq<byte>, remote: Remote): (r: RemoteOutcome)
    ensures !IsAttached(e) ==> !r.ok && r.target == t && r.events == []
    ensures Balanced(r.events)
    ensures r.target.allocations == t.allocations && r.target.modules == t.modules
    ensures |r.events| > 0 <==> PathBufferGranted(e, t, path, remote)
    ensures !PathBufferGranted(e, t, path, remote) ==> !r.ok && r.target == t
    ensures PathBufferGranted(e, t, path, remote) ==>
              && Released(r.target, remote.grant, remote.grant + |path| + 1)
              && SameOutside(t, r.target, remote.grant, remote.grant + |path| + 1)
    ensures r.ok <==>
              PathBufferGranted(e, t, path, remote) && remote.symbolResolved && remote.threadStarted && remote.exitCode != 0
    ensures r.ok ==> r.events == FullTrace(path, remote.grant)
    ensures PathBufferGranted(e, t, path, remote) && remote.symbolResolved && remote.threadStarted ==>
              r.events == FullTrace(path, remote.grant)
    ensures PathBufferGranted(e, t, path, remote) && !(remote.symbolResolved && remote.threadStarted) ==>
              r.events == FullTrace(path, remote.grant)[..2] + [Freed(remote.grant)]
    ensures forall i :: 0 <= i < |r.events| && r.events[i].RemoteThread? ==>
              && r.events[i] == RemoteThread(LoadLibraryA, remote.grant)
              && 0 < i && r.events[i - 1] == Wrote(remote.grant, path + [0])
  {
    if !IsAttached(e) then RemoteOutcome(false, t, [])
    else
      var alloc := AllocateMemory(e, t, |path| + 1, remote.grant, MemCommit | MemReserve, PageReadWrite);
      if alloc.address == 0 then RemoteOutcome(false, t, [])
      else
        var remoteString := alloc.address;
        var written := WriteString(e, alloc.target, remoteString, path);
        PathBufferReleased(e, t, path, remote);
        PathWriteSucceeds(e, t, path, remote.grant);
        // `write_string` on the freshly granted buffer cannot fail (PathWriteSucceeds), so
        // the exit that frees the buffer after a failed write is never taken.
        if !written.ok then assert false; RemoteOutcome(false, t, [])
        else if !remote.symbolResolved then
          var freed := FreeMemory(e, written.target, remoteString);
          RemoteOutcome(false, freed.target, InjectTrace(path, remoteString, true, false))
        else if !remote.threadStarted then
          var freed := FreeMemory(e, written.target, remoteString);
          RemoteOutcome(false, freed.target, InjectTrace(path, remoteString, true, false))
        else
          var freed := FreeMemory(e, written.target, remoteString);
          RemoteOutcome(remote.exitCode != 0, freed.target, InjectTrace(path, remoteString, true, true))
  }

  /** Injecting a one-byte path into a target with no memory of its own: the buffer is
      granted over free address space, so the call succeeds with the full trace and
      leaves the page free again. */
  lemma InjectIntoEmptyTarget()
    ensures var t := Target(map[], {}, map[0x1000 := PageInfo(MemFree, 1)], Some([]), map[]);
            var r := InjectDll(Engine(4, 100), t, [0x61], Remote(0x1000, true, true, 1));
            && r.ok && r.events == FullTrace([0x61], 0x1000)
            && r.target.pages[0x1000] == PageInfo(MemFree, 0) && r.target.allocations == map[]
  {
    var t := Target(map[], {}, map[0x1000 := PageInfo(MemFree, 1)], Some([]), map[]);
    assert Unallocated(t, 0x1000, 0x1002);
  }

  /** `eject_dll`. */
  function EjectDll(e: Engine, t: Target, name: string, remote: Remote): (r: RemoteOutcome)
    ensures r.target == t
    ensures forall i :: 0 <= i < |r.events| ==> !r.events[i].Allocated? && !r.events[i].Freed?
    ensures r.ok <==> IsAttached(e) && ModuleBase(e, t, name) != 0 && remote.symbolResolved && remote.threadStarted
    ensures r.ok ==> r.events == [RemoteThread(FreeLibrary, ModuleBase(e, t, name))]
    ensures !r.ok ==> r.events == []
  {
    if !IsAttached(e) then RemoteOutcome(false, t, [])
    else
      var moduleBase := ModuleBase(e, t, name);
      if moduleBase == 0 then RemoteOutcome(false, t, [])
      else if !remote.symbolResolved then RemoteOutcome(false, t, [])
      else if !remote.threadStarted then RemoteOutcome(false, t, [])
      else RemoteOutcome(true, t, [RemoteThread(FreeLibrary, moduleBase)])
  }

  /** When `GetProcAddress` cannot resolve `LoadLibraryA`, `inject_dll` has written the
      path, frees the buffer and fails, leaving the live allocations as they were. */
  lemma SymbolFailureFreesAllocation(e: Engine, t: Target, path: seq<byte>, remote: Remote)
    requires PathBufferGranted(e, t, path, remote) && !remote.symbolResolved
    ensures var r := InjectDll(e, t, path, remote);
            && !r.ok
            && r.events == [Allocated(remote.grant, |path| + 1, MemCommit | MemReserve, PageReadWrite),
                            Wrote(remote.grant, path + [0]), Freed(remote.grant)]
            && r.target.allocations == t.allocations
  {
  }

  /** `eject_dll` reports success once the remote thread has run, whatever `FreeLibrary`
      returned in it. */
  lemma EjectIgnoresExitCode(e: Engine, t: Target, name: string, remote: Remote, exitCode: Dword)
    ensures EjectDll(e, t, name, remote.(exitCode := exitCode)) == EjectDll(e, t, name, remote)
  {
  }
}

=== FILE: memory_io.dfy ===
/** The primitive memory operations of `c_memory`: byte-exact reads and writes, C strings,
    typed values, page protection and queries, and remote allocation. Every operation
    first checks `is_attached()` and fails when the object holds no handle. */
module MemoryIO {
  import opened Win
  import opened TargetProcess
  import opened Session

  /** `read_memory`: the `size` bytes at `address`, or `None` when not attached or when
      the OS copied fewer than `size` bytes. */
  function ReadMemory(e: Engine, t: Target, address: nat, size: nat): (r: Option<seq<byte>>)
    ensures r.Some? <==> IsAttached(e) && Readable(t, address, address + size)
    ensures r.Some? ==> |r.value| == size
    ensures r.Some? ==> CopiedFrom(t, address, r.value)
  {
    if !IsAttached(e) then None
    else
      var copied := ReadProcessMemory(t, address, size);
      if !copied.ok || |copied.data| != size then None else Some(copied.data)
  }

  /** `read_bytes`: the bytes read, or the empty vector on failure. */
  function ReadBytes(e: Engine, t: Target, address: nat, size: nat): (r: seq<byte>)
    ensures IsAttached(e) && Readable(t, address, address + size) ==>
              |r| == size && CopiedFrom(t, address, r)
    ensures !(IsAttached(e) && Readable(t, address, address + size)) ==> r == []
  {
    match ReadMemory(e, t, address, size)
    case Some(bytes) => bytes
    case None => []
  }

  /** `std::string(buffer.data())`: the bytes before the first NUL. */
  function UntilNul(b: seq<byte>): (r: seq<byte>)
    ensures |r| <= |b| && r == b[..|r|]
    ensures forall k :: 0 <= k < |r| ==> r[k] != 0
    ensures |r| < |b| ==> b[|r|] == 0
  {
    if |b| == 0 || b[0] == 0 then [] else [b[0]] + UntilNul(b[1..])
  }

  /** `read_string`: reads `maxLength` bytes into a zero-filled buffer of `maxLength + 1`
      and keeps what precedes the first NUL; the empty string when the read fails. */
  function ReadString(e: Engine, t: Target, address: nat, maxLength: nat := 256): (r: seq<byte>)
    ensures !(IsAttached(e) && Readable(t, address, address + maxLength)) ==> r == []
    ensures |r| <= maxLength
    ensures forall k :: 0 <= k < |r| ==> r[k] != 0
    ensures CopiedFrom(t, address, r)
    ensures IsAttached(e) && Readable(t, address, address + maxLength) && |r| < maxLength ==>
              address + |r| in t.mem && t.mem[address + |r|] == 0
  {
    match ReadMemory(e, t, address, maxLength)
    case Some(bytes) => UntilNul(bytes)
    case None => []
  }

  /** Result of a write: whether exactly all bytes were written, and the target afterwards. */
  datatype WriteResult = WriteResult(ok: bool, target: Target)

  /** `write_memory` (and `write_bytes`, which passes a vector's contents): fails when not
      attached or when the OS wrote fewer than `|data|` bytes. Only bytes of
      `[address, address + |data|)` can change, and on success they hold `data`. */
  function WriteMemory(e: Engine, t: Target, address: nat, data: seq<byte>): (r: WriteResult)
    ensures r.ok <==> IsAttached(e) && Writable(t, address, address + |data|)
    ensures !IsAttached(e) ==> r.target == t
    ensures r.ok ==> forall a :: address <= a < address + |data| ==> a in r.target.mem && r.target.mem[a] == data[a - address]
    ensures forall a :: a < address || address + |data| <= a ==>
              (a in r.target.mem <==> a in t.mem) && (a in t.mem ==> r.target.mem[a] == t.mem[a])
    ensures r.target == t.(mem := r.target.mem)
  {
    if !IsAttached(e) then WriteResult(false, t)
    else
      var written := WriteProcessMemory(t, address, data);
      WriteResult(written.ok && written.count == |data|, written.target)
  }

  /** `write_string`: writes the string and its terminating NUL, `|s| + 1` bytes. */
  function WriteString(e: Engine, t: Target, address: nat, s: seq<byte>): (r: WriteResult)
    ensures r.ok <==> IsAttached(e) && Writable(t, address, address + |s| + 1)
    ensures r.ok ==> forall a :: address <= a < address + |s| ==> a in r.target.mem && r.target.mem[a] == s[a - address]
    ensures r.ok ==> address + |s| in r.target.mem && r.target.mem[address + |s|] == 0
    ensures forall a :: a < address || address + |s| + 1 <= a ==>
              (a in r.target.mem <==> a in t.mem) && (a in t.mem ==> r.target.mem[a] == t.mem[a])
    ensures r.target == t.(mem := r.target.mem)
  {
    WriteMemory(e, t, address, s + [0])
  }

  /** What `write_memory` followed by `read_memory` of the same range gives back. */
  lemma WriteThenRead(e: Engine, t: Target, address: nat, data: seq<byte>)
    requires WriteMemory(e, t, address, data).ok
    ensures ReadMemory(e, WriteMemory(e, t, address, data).target, address, |data|) == Some(data)
  {
    var t' := WriteMemory(e, t, address, data).target;
    assert Readable(t', address, address + |data|);
    var b := ReadMemory(e, t', address, |data|).value;
    forall k | 0 <= k < |data|
      ensures b[k] == data[k]
    {
      assert b[k] == t'.mem[address + k];
    }
    assert b == data;
  }

  /** A NUL-free string written by `write_string` reads back through `read_string`
      whenever it fits in `maxLength` and the bytes after its terminator, up to
      `maxLength`, are readable. */
  lemma WriteStringThenReadString(e: Engine, t: Target, address: nat, s: seq<byte>, maxLength: nat)
    requires WriteString(e, t, address, s).ok
    requires forall k :: 0 <= k < |s| ==> s[k] != 0
    requires |s| <= maxLength
    requires Readable(t, address + |s| + 1, address + maxLength)
    ensures ReadString(e, WriteString(e, t, address, s).target, address, maxLength) == s
  {
    var t' := WriteString(e, t, address, s).target;
    assert Readable(t', address, address + maxLength);
    var b := ReadMemory(e, t', address, maxLength).value;
    assert forall k :: 0 <= k < |s| ==> b[k] == s[k];
    UntilNulStopsAtTerminator(b, s);
  }

  /** `UntilNul` of a buffer that starts with a NUL-free `s` followed by a NUL or the end. */
  lemma {:induction false} UntilNulStopsAtTerminator(b: seq<byte>, s: seq<byte>)
    requires |s| <= |b| && b[..|s|] == s
    requires forall k :: 0 <= k < |s| ==> s[k] != 0
    requires |s| < |b| ==> b[|s|] == 0
    ensures UntilNul(b) == s
  {
    if |s| > 0 {
      assert b[0] == s[0];
      assert b[1..][..|s| - 1] == s[1..];
      UntilNulStopsAtTerminator(b[1..], s[1..]);
    }
  }

  /** 256 to the power `n`: the number of values a `width`-byte unsigned integer can hold. */
  function Pow256(n: nat): (r: nat)
    ensures r >= 1
  {
    if n == 0 then 1 else 256 * Pow256(n - 1)
  }

  /** The value of a little-endian byte image, as x86 and x64 store integers. */
  function FromLittleEndian(b: seq<byte>): (v: nat)
    ensures v < Pow256(|b|)
  {
    if |b| == 0 then 0 else b[0] + 256 * FromLittleEndian(b[1..])
  }

  /** The little-endian byte image of `v` in `width` bytes: it decodes back to `v`. */
  function ToLittleEndian(v: nat, width: nat): (b: seq<byte>)
    requires v < Pow256(width)
    ensures |b| == width
    ensures FromLittleEndian(b) == v
  {
    if width == 0 then []
    else
      var b := [v % 256] + ToLittleEndian(v / 256, width - 1);
      assert b[1..] == ToLittleEndian(v / 256, width - 1);
      b
  }

  lemma {:induction false} EncodeDecode(b: seq<byte>)
    ensures ToLittleEndian(FromLittleEndian(b), |b|) == b
  {
    if |b| > 0 {
      var v := FromLittleEndian(b);
      assert v % 256 == b[0] && v / 256 == FromLittleEndian(b[1..]);
      EncodeDecode(b[1..]);
    }
  }

  /** `read<T>` for an unsigned integer type `T` of `width` bytes: a value only when
      `read_memory` succeeds for exactly `sizeof(T)` bytes. */
  function ReadUnsigned(e: Engine, t: Target, address: nat, width: nat): (r: Option<nat>)
    ensures r.Some? <==> ReadMemory(e, t, address, width).Some?
    ensures r.Some? ==> r.value < Pow256(width) && ToLittleEndian(r.value, width) == ReadMemory(e, t, address, width).value
  {
    match ReadMemory(e, t, address, width)
    case None => None
    case Some(bytes) =>
      EncodeDecode(bytes);
      Some(FromLittleEndian(bytes))
  }

  /** `write<T>` for an unsigned integer type `T` of `width` bytes: forwards the
      `sizeof(T)` bytes of the value to `write_memory`. */
  function WriteUnsigned(e: Engine, t: Target, address: nat, width: nat, value: nat): (r: WriteResult)
    requires value < Pow256(width)
    ensures r == WriteMemory(e, t, address, ToLittleEndian(value, width))
    ensures r.ok <==> IsAttached(e) && Writable(t, address, address + width)
    ensures r.ok ==> ReadUnsigned(e, r.target, address, width) == Some(value)
    ensures forall a :: a < address || address + width <= a ==>
              (a in r.target.mem <==> a in t.mem) && (a in t.mem ==> r.target.mem[a] == t.mem[a])
    ensures r.target == t.(mem := r.target.mem)
  {
    var w := WriteMemory(e, t, address, ToLittleEndian(value, width));
    assert w.ok ==> ReadUnsigned(e, w.target, address, width) == Some(value) by {
      if w.ok {
        WriteThenRead(e, t, address, ToLittleEndian(value, width));
      }
    }
    w
  }

  /** `query_memory`: what the OS reports about `address`, or nothing when not attached. */
  function QueryMemory(e: Engine, t: Target, address: nat): (r: Option<PageInfo>)
    ensures r.Some? <==> IsAttached(e) && address in t.pages
    ensures r.Some? ==> r.value == t.pages[address]
  {
    if !IsAttached(e) then None else VirtualQueryEx(t, address)
  }

  /** `is_valid_address`: the query succeeded and reported a committed page. */
  function IsValidAddress(e: Engine, t: Target, address: nat): (r: bool)
    ensures r <==> IsAttached(e) && Committed(t, address, address + 1)
  {
    var info := QueryMemory(e, t, address);
    info.Some? && info.value.state == MemCommit
  }

  /** Result of `protect_memory`: the previous protection on success (what the optional
      `old_protection` out-parameter receives), and the target afterwards. */
  datatype ProtectResult = ProtectResult(previous: Option<Dword>, target: Target)

  /** `protect_memory`: fails when not attached or when the OS refuses; on success
      every address of the range carries `newProtection`, is writable exactly when that
      protection allows it, and the protection `address` had before is reported. Page
      states and bytes never change. */
  function ProtectMemory(e: Engine, t: Target, address: nat, size: nat, newProtection: Dword): (r: ProtectResult)
    ensures r.previous.Some? <==> IsAttached(e) && Committed(t, address, address + if size == 0 then 1 else size)
    ensures r.previous.None? ==> r.target == t
    ensures r.previous.Some? ==> address in t.pages && r.previous.value == t.pages[address].protect
    ensures r.previous.Some? ==> forall a :: address <= a < address + size ==>
              && a in r.target.pages && r.target.pages[a].protect == newProtection
              && (a in r.target.writable <==> AllowsWrite(newProtection))
    ensures forall a :: a < address || address + size <= a ==>
              (a in t.pages ==> a in r.target.pages && r.target.pages[a] == t.pages[a]) && (a in r.target.writable <==> a in t.writable)
    ensures r.target.mem == t.mem && r.target.modules == t.modules && r.target.allocations == t.allocations
    ensures forall a :: IsValidAddress(e, r.target, a) == IsValidAddress(e, t, a)
  {
    if !IsAttached(e) then ProtectResult(None, t)
    else
      var p := VirtualProtectEx(t, address, size, newProtection);
      ProtectResult(p.previous, p.target)
  }

  /** `unprotect_memory`: `protect_memory` to `PAGE_EXECUTE_READWRITE`, after which the
      whole range can be written. */
  function UnprotectMemory(e: Engine, t: Target, address: nat, size: nat): (r: ProtectResult)
    ensures r.previous.Some? <==> IsAttached(e) && Committed(t, address, address + if size == 0 then 1 else size)
    ensures r.previous.None? ==> r.target == t
    ensures r.previous.Some? ==> address in t.pages && r.previous.value == t.pages[address].protect
    ensures r.previous.Some? ==> Writable(r.target, address, address + size)
    ensures r.previous.Some? ==> forall a :: address <= a < address + size ==>
              a in r.target.pages && r.target.pages[a].protect == PageExecuteReadWrite
    ensures forall a :: a < address || address + size <= a ==>
              (a in t.pages ==> a in r.target.pages && r.target.pages[a] == t.pages[a]) && (a in r.target.writable <==> a in t.writable)
    ensures r.target.mem == t.mem
  {
    ProtectMemory(e, t, address, size, PageExecuteReadWrite)
  }

  /** Every address of `[lo, hi)` has the protection `lo` has. */
  ghost predicate UniformProtection(t: Target, lo: nat, hi: nat)
    requires lo in t.pages
  {
    forall a :: lo <= a < hi ==> a in t.pages && t.pages[a].protect == t.pages[lo].protect
  }

  /** Over `[lo, hi)` an address is writable exactly when its page's protection allows
      writing, as `VirtualAllocEx` and `VirtualProtectEx` leave committed memory. */
  ghost predicate WritesFollowProtection(t: Target, lo: nat, hi: nat) {
    forall a :: lo <= a < hi ==> a in t.pages && (a in t.writable <==> AllowsWrite(t.pages[a].protect))
  }

  /** Changing a uniformly protected range and then changing it back to the reported
      previous protection restores the target exactly. */
  lemma ProtectThenRestore(e: Engine, t: Target, address: nat, size: nat, newProtection: Dword)
    requires ProtectMemory(e, t, address, size, newProtection).previous.Some?
    requires UniformProtection(t, address, address + size)
    requires WritesFollowProtection(t, address, address + size)
    ensures var first := ProtectMemory(e, t, address, size, newProtection);
            ProtectMemory(e, first.target, address, size, first.previous.value).target == t
  {
    var first := ProtectMemory(e, t, address, size, newProtection);
    var second := ProtectMemory(e, first.target, address, size, first.previous.value);
    assert Committed(first.target, address, address + if size == 0 then 1 else size);
    assert second.previous.Some?;
    assert second.target.pages == t.pages;
    assert second.target.writable == t.writable;
  }

  /** Result of `allocate_memory`: the allocation's address (0 on failure) and the target. */
  datatype AllocResult = AllocResult(address: nat, target: Target)

  /** `allocate_memory`. `grant` is the address `VirtualAllocEx` picks; 0 stands for the
      OS refusing. The OS never hands out an empty region or one that overlaps reserved
      or committed memory, and it fails unless the type reserves or commits. Committed
      memory reads as zeros. The defaults are `MEM_COMMIT | MEM_RESERVE` and
      `PAGE_EXECUTE_READWRITE`. */
  function AllocateMemory(e: Engine, t: Target, size: nat, grant: nat,
                          allocationType: Dword := MemCommit | MemReserve,
                          protection: Dword := PageExecuteReadWrite): (r: AllocResult)
    ensures r.address != 0 <==>
              && IsAttached(e) && size > 0 && grant != 0 && grant !in t.allocations
              && Unallocated(t, grant, grant + size) && allocationType & (MemCommit | MemReserve) != 0
    ensures r.address == 0 ==> r.target == t
    ensures r.address != 0 ==> r.address == grant
    ensures r.address != 0 ==> r.target.allocations == t.allocations[grant := Allocation(size, allocationType, protection)]
    ensures r.address != 0 && Commits(allocationType) ==>
              && Committed(r.target, grant, grant + size)
              && (forall a :: grant <= a < grant + size ==> IsValidAddress(e, r.target, a) && r.target.pages[a].protect == protection)
    ensures r.address != 0 && Commits(allocationType) && AllowsRead(protection) ==>
              ReadMemory(e, r.target, grant, size) == Some(seq(size, _ => 0))
    ensures r.address != 0 && Commits(allocationType) && AllowsWrite(protection) ==> Writable(r.target, grant, grant + size)
    ensures r.address != 0 && Commits(allocationType) ==>
              forall a :: grant <= a < grant + size ==>
                (a in r.target.mem <==> AllowsRead(protection)) && (a in r.target.writable <==> AllowsWrite(protection))
    ensures r.address != 0 && !Commits(allocationType) ==>
              forall a :: grant <= a < grant + size ==> !IsValidAddress(e, r.target, a) && a !in r.target.mem && a !in r.target.writable
    ensures SameOutside(t, r.target, grant, grant + size)
    ensures r.target.modules == t.modules
  {
    if !IsAttached(e) || size == 0 || grant == 0 || grant in t.allocations
       || !Unallocated(t, grant, grant + size) || allocationType & (MemCommit | MemReserve) == 0
    then AllocResult(0, t)
    else
      FreshRegion(e, t, grant, size, allocationType, protection);
      AllocResult(grant, VirtualAllocEx(t, grant, size, allocationType, protection))
  }

  /** What the engine observes of a region `VirtualAllocEx` has just made. */
  lemma FreshRegion(e: Engine, t: Target, grant: nat, size: nat, allocationType: Dword, protection: Dword)
    requires IsAttached(e)
    ensures var u := VirtualAllocEx(t, grant, size, allocationType, protection);
            && (Commits(allocationType) ==>
                  && Committed(u, grant, grant + size)
                  && (forall a :: grant <= a < grant + size ==> IsValidAddress(e, u, a) && u.pages[a].protect == protection))
            && (Commits(allocationType) && AllowsRead(protection) ==> ReadMemory(e, u, grant, size) == Some(seq(size, _ => 0)))
            && (Commits(allocationType) && AllowsWrite(protection) ==> Writable(u, grant, grant + size))
            && (Commits(allocationType) ==>
                  forall a :: grant <= a < grant + size ==>
                    (a in u.mem <==> AllowsRead(protection)) && (a in u.writable <==> AllowsWrite(protection)))
            && (!Commits(allocationType) ==>
                  forall a :: grant <= a < grant + size ==> !IsValidAddress(e, u, a) && a !in u.mem && a !in u.writable)
  {
    var u := VirtualAllocEx(t, grant, size, allocationType, protection);
    if Commits(allocationType) && AllowsRead(protection) {
      var r := ReadMemory(e, u, grant, size);
      assert r.Some?;
      assert r.value == seq(size, _ => 0);
    }
  }

  /** Result of `free_memory`. */
  datatype FreeResult = FreeResult(ok: bool, target: Target)

  /** `free_memory`, defaults size 0 and `MEM_RELEASE`: releases a live allocation, whose
      whole region becomes free address space. */
  function FreeMemory(e: Engine, t: Target, address: nat, size: nat := 0, freeType: Dword := MemRelease): (r: FreeResult)
    ensures r.ok <==> IsAttached(e) && address in t.allocations && size == 0 && freeType == MemRelease
    ensures !r.ok ==> r.target == t
    ensures r.ok ==> r.target.allocations == t.allocations - {address}
    ensures r.ok ==> Released(r.target, address, address + t.allocations[address].size)
    ensures r.ok ==> forall a :: address <= a < address + t.allocations[address].size ==> !IsValidAddress(e, r.target, a)
    ensures r.ok ==> SameOutside(t, r.target, address, address + t.allocations[address].size)
    ensures r.target.modules == t.modules
  {
    if IsAttached(e) && address in t.allocations && size == 0 && freeType == MemRelease then
      FreeResult(true, VirtualFreeEx(t, address))
    else FreeResult(false, t)
  }

  /** An allocation made with the default flags is recorded with them, is committed and
      writable, and freeing it with the default arguments succeeds, drops the allocation
      and leaves everything outside its region as it was. When the region was released
      memory before, the target is exactly restored. */
  lemma AllocateThenFree(e: Engine, t: Target, size: nat, grant: nat)
    requires AllocateMemory(e, t, size, grant).address != 0
    ensures var a := AllocateMemory(e, t, size, grant);
            && a.target.allocations[a.address] == Allocation(size, MemCommit | MemReserve, PageExecuteReadWrite)
            && Committed(a.target, grant, grant + size) && Writable(a.target, grant, grant + size)
            && FreeMemory(e, a.target, a.address).ok
            && FreeMemory(e, a.target, a.address).target.allocations == t.allocations
            && SameOutside(t, FreeMemory(e, a.target, a.address).target, grant, grant + size)
            && (Released(t, grant, grant + size) ==> FreeMemory(e, a.target, a.address).target == t)
  {
    var a := AllocateMemory(e, t, size, grant);
    assert Commits(MemCommit | MemReserve) && AllowsWrite(PageExecuteReadWrite);
    var f := FreeMemory(e, a.target, a.address);
    RecordThenDrop(t.allocations, grant, Allocation(size, MemCommit | MemReserve, PageExecuteReadWrite));
    if Released(t, grant, grant + size) {
      ReleasedAgainIsSame(t, f.target, grant, grant + size);
    }
  }

  /** A committed `PAGE_EXECUTE_READ` allocation takes a write: `WriteProcessMemory`
      lifts the execute protection for the write, so the bytes land and read back. */
  lemma WriteThroughExecuteRead(e: Engine, t: Target, size: nat, grant: nat, data: seq<byte>)
    requires AllocateMemory(e, t, size, grant, MemCommit | MemReserve, PageExecuteRead).address != 0
    requires |data| <= size
    ensures var a := AllocateMemory(e, t, size, grant, MemCommit | MemReserve, PageExecuteRead);
            && WriteMemory(e, a.target, grant, data).ok
            && ReadMemory(e, WriteMemory(e, a.target, grant, data).target, grant, |data|) == Some(data)
  {
    var a := AllocateMemory(e, t, size, grant, MemCommit | MemReserve, PageExecuteRead);
    assert Commits(MemCommit | MemReserve) && AllowsWrite(PageExecuteRead);
    assert Writable(a.target, grant, grant + |data|);
    WriteThenRead(e, a.target, grant, data);
  }

  /** A committed `PAGE_EXECUTE` allocation reads back as zeros before anything is written
      to it, and accepts writes: readability does not wait for a first write. */
  lemma ExecuteRegionReadsZeros(e: Engine, t: Target, size: nat, grant: nat)
    requires AllocateMemory(e, t, size, grant, MemCommit | MemReserve, PageExecute).address != 0
    ensures var a := AllocateMemory(e, t, size, grant, MemCommit | MemReserve, PageExecute);
            && ReadMemory(e, a.target, grant, size) == Some(seq(size, _ => 0))
            && Writable(a.target, grant, grant + size)
  {
    assert Commits(MemCommit | MemReserve) && AllowsRead(PageExecute) && AllowsWrite(PageExecute);
  }

  /** `query_memory` after a successful `protect_memory` reports, for every address of
      the range, the new protection and the page state it had before. */
  lemma ProtectThenQuery(e: Engine, t: Target, address: nat, size: nat, newProtection: Dword, a: nat)
    requires ProtectMemory(e, t, address, size, newProtection).previous.Some?
    requires address <= a < address + size
    ensures a in t.pages
    ensures QueryMemory(e, ProtectMemory(e, t, address, size, newProtection).target, a)
              == Some(PageInfo(t.pages[a].state, newProtection))
  {
  }
}

=== FILE: module_catalog.dfy ===
/** Module lookups of `c_memory` over the target's module snapshot: `get_module_base`,
    `get_module_size` and `get_loaded_modules`. A lookup walks the snapshot in order and
    stops at the first module whose name equals the query up to case; the empty query
    stands for the first module, the process's main executable. */
module ModuleCatalog {
  import opened Win
  import opened Snapshot
  import opened TargetProcess
  import opened Session

  /** The test `module_name.empty() || current_module == target_module`. */
  predicate ModuleMatches(m: ModuleEntry, query: string) {
    query == [] || SameName(m.name, query)
  }

  /** Entry `j` is the first one in walk order that the query selects. */
  ghost predicate IsFirstModule(mods: seq<ModuleEntry>, query: string, j: int) {
    && 0 <= j < |mods|
    && ModuleMatches(mods[j], query)
    && forall i :: 0 <= i < j ==> !ModuleMatches(mods[i], query)
  }

  /** The snapshot walk shared by `get_module_base` and `get_module_size`: the selected
      module, or `None` when not attached, when the snapshot fails or when nothing matches. */
  function LookupModule(e: Engine, t: Target, query: string): (r: Option<ModuleEntry>)
    ensures !IsAttached(e) || t.modules.None? ==> r.None?
    ensures r.Some? ==> t.modules.Some? && exists j :: IsFirstModule(t.modules.value, query, j) && r.value == t.modules.value[j]
    ensures IsAttached(e) && t.modules.Some? ==>
              (r.None? <==> forall j :: 0 <= j < |t.modules.value| ==> !ModuleMatches(t.modules.value[j], query))
  {
    if !IsAttached(e) then None
    else match t.modules
      case None => None
      case Some(mods) =>
        match FirstWhere(mods, (m: ModuleEntry) => ModuleMatches(m, query))
        case None => None
        case Some(j) => Some(mods[j])
  }

  /** `get_module_base`: base address of the selected module, 0 when there is none. */
  function ModuleBase(e: Engine, t: Target, query: string): (r: nat)
    ensures !IsAttached(e) || t.modules.None? ==> r == 0
    ensures IsAttached(e) && t.modules.Some? ==>
              forall j :: IsFirstModule(t.modules.value, query, j) ==> r == t.modules.value[j].base
    ensures IsAttached(e) && t.modules.Some? && (forall j :: 0 <= j < |t.modules.value| ==> !ModuleMatches(t.modules.value[j], query)) ==> r == 0
  {
    match LookupModule(e, t, query)
    case Some(m) => m.base
    case None => 0
  }

  /** `get_module_size`: size of the selected module, 0 when there is none. */
  function ModuleSize(e: Engine, t: Target, query: string): (r: nat)
    ensures !IsAttached(e) || t.modules.None? ==> r == 0
    ensures IsAttached(e) && t.modules.Some? ==>
              forall j :: IsFirstModule(t.modules.value, query, j) ==> r == t.modules.value[j].size
    ensures IsAttached(e) && t.modules.Some? && (forall j :: 0 <= j < |t.modules.value| ==> !ModuleMatches(t.modules.value[j], query)) ==> r == 0
  {
    match LookupModule(e, t, query)
    case Some(m) => m.size
    case None => 0
  }

  /** `get_loaded_modules`: every module name in walk order; empty when not attached or
      when the snapshot fails. */
  function LoadedModules(e: Engine, t: Target): (r: seq<string>)
    ensures !IsAttached(e) || t.modules.None? ==> r == []
    ensures IsAttached(e) && t.modules.Some? ==>
              |r| == |t.modules.value| && forall i :: 0 <= i < |r| ==> r[i] == t.modules.value[i].name
  {
    if !IsAttached(e) then []
    else match t.modules
      case None => []
      case Some(mods) => seq(|mods|, i requires 0 <= i < |mods| => mods[i].name)
  }

  /** The empty query selects the first module of a non-empty snapshot. */
  lemma EmptyQuerySelectsFirst(e: Engine, t: Target)
    ensures IsAttached(e) && t.modules.Some? && |t.modules.value| > 0 ==>
              LookupModule(e, t, "") == Some(t.modules.value[0])
  {
    if IsAttached(e) && t.modules.Some? && |t.modules.value| > 0 {
      assert IsFirstModule(t.modules.value, "", 0);
    }
  }

  /** Queries that differ only in case select the same module. */
  lemma LookupIgnoresCase(e: Engine, t: Target, q1: string, q2: string)
    requires SameName(q1, q2)
    ensures LookupModule(e, t, q1) == LookupModule(e, t, q2)
  {
    EmptyOnlyLowersToEmpty(q1);
    EmptyOnlyLowersToEmpty(q2);
    assert forall m: ModuleEntry :: ModuleMatches(m, q1) == ModuleMatches(m, q2);
    if IsAttached(e) && t.modules.Some? {
      var mods := t.modules.value;
      var r1 := LookupModule(e, t, q1);
      var r2 := LookupModule(e, t, q2);
      if r1.Some? {
        var j1 :| IsFirstModule(mods, q1, j1) && r1.value == mods[j1];
        assert IsFirstModule(mods, q2, j1);
        var j2 :| IsFirstModule(mods, q2, j2) && r2.value == mods[j2];
        assert j1 == j2;
      }
    }
  }

  /** Every name `get_loaded_modules` reports can be looked up again: the lookup selects
      that module or an earlier one with the same name up to case. */
  lemma LoadedModulesAreFindable(e: Engine, t: Target, i: nat)
    requires i < |LoadedModules(e, t)|
    ensures var name := LoadedModules(e, t)[i];
            && LookupModule(e, t, name).Some?
            && exists j :: 0 <= j <= i && LookupModule(e, t, name) == Some(t.modules.value[j])
  {
    var name := LoadedModules(e, t)[i];
    assert ModuleMatches(t.modules.value[i], name);
  }

  /** A two-module snapshot: the empty query and "game.exe"
      select the main module, "KERNEL32.DLL" selects kernel32.dll, and an absent name
      gives 0. */
  lemma ExampleLookups(e: Engine)
    requires IsAttached(e)
    ensures var t := Target(map[], {}, map[], Some([ModuleEntry("game.exe", 0x400000, 0x100000),
                                                    ModuleEntry("kernel32.dll", 0x770000, 0x20000)]), map[]);
            && ModuleBase(e, t, "") == 0x400000
            && ModuleBase(e, t, "game.exe") == 0x400000
            && ModuleBase(e, t, "KERNEL32.DLL") == 0x770000
            && ModuleSize(e, t, "KERNEL32.DLL") == 0x20000
            && ModuleBase(e, t, "user32.dll") == 0
  {
    var mods := [ModuleEntry("game.exe", 0x400000, 0x100000), ModuleEntry("kernel32.dll", 0x770000, 0x20000)];
    assert IsFirstModule(mods, "", 0);
    assert IsFirstModule(mods, "game.exe", 0);
    assert Lowercase("KERNEL32.DLL") == "kernel32.dll";
    assert Lowercase("kernel32.dll") == "kernel32.dll";
    assert Lowercase("game.exe") == "game.exe";
    assert IsFirstModule(mods, "KERNEL32.DLL", 1);
    assert Lowercase("user32.dll") == "user32.dll";
    assert forall j :: 0 <= j < |mods| ==> !ModuleMatches(mods[j], "user32.dll");
  }
}

=== FILE: pattern_scanner.dfy ===
/** Signature scanning in `c_memory`: `pattern_compare`, `pattern_scan` and
    `pattern_scan_all`. A pattern is a byte string with a mask string; a position whose
    mask character is 'x' must hold the pattern byte, every other mask character is a
    wildcard, and positions past the shorter of the two strings are never compared.

    `pattern_scan` reads the range in chunks of 4096 bytes and, inside each chunk, tries
    every offset at which the whole pattern fits. The next chunk starts `4096 - p` bytes
    later (`p` the pattern length), which is exactly the last offset the previous chunk
    tried: consecutive chunks overlap by `p` bytes, so no occurrence that straddles a
    chunk boundary is missed. The loop runs while `addr < end - p`, strictly, so a range
    of exactly `p` bytes (or fewer) is never examined. The value 0 means "not found". */
module PatternScanner {
  import opened Win
  import opened TargetProcess
  import opened Session
  import opened MemoryIO
  import opened ModuleCatalog

  /** The size of the scan buffer. */
  const ChunkSize: nat := 4096

  function Min(a: nat, b: nat): nat {
    if a < b then a else b
  }

  /** How many positions `pattern_compare` looks at: it stops at the end of the shorter
      of pattern and mask. */
  function CompareLength(pattern: seq<byte>, mask: string): nat {
    Min(|pattern|, |mask|)
  }

  /** The pattern matches at the start of `data`. */
  predicate Matches(data: seq<byte>, pattern: seq<byte>, mask: string)
    requires CompareLength(pattern, mask) <= |data|
  {
    forall i :: 0 <= i < CompareLength(pattern, mask) && mask[i] == 'x' ==> data[i] == pattern[i]
  }

  /** `pattern_compare`: false as soon as an 'x' position differs, true otherwise. */
  method PatternCompare(data: seq<byte>, pattern: seq<byte>, mask: string) returns (r: bool)
    requires CompareLength(pattern, mask) <= |data|
    ensures r <==> Matches(data, pattern, mask)
    ensures !r <==> exists i :: 0 <= i < CompareLength(pattern, mask) && mask[i] == 'x' && data[i] != pattern[i]
  {
    var i := 0;
    while i < |pattern| && i < |mask|
      invariant 0 <= i <= CompareLength(pattern, mask)
      invariant forall j :: 0 <= j < i && mask[j] == 'x' ==> data[j] == pattern[j]
    {
      if mask[i] == 'x' && data[i] != pattern[i] {
        return false;
      }
      i := i + 1;
    }
    return true;
  }

  /** The signature `55 8B EC` with mask "x?x": the middle byte is a wildcard, the outer
      two must match, and an empty mask compares nothing. */
  lemma WildcardExample()
    ensures Matches([0x55, 0x00, 0xEC], [0x55, 0x8B, 0xEC], "x?x")
    ensures !Matches([0x55, 0x8B, 0xED], [0x55, 0x8B, 0xEC], "x?x")
    ensures Matches([0x00], [0x55, 0x8B, 0xEC], "")
  {
    var mask := "x?x";
    assert mask[2] == 'x';
  }

  /** The pattern matches the target's memory at address `a`. */
  ghost predicate MatchAt(t: Target, a: nat, pattern: seq<byte>, mask: string) {
    forall i :: 0 <= i < CompareLength(pattern, mask) && mask[i] == 'x' ==>
      a + i in t.mem && t.mem[a + i] == pattern[i]
  }

  /** `r` is the lowest address of `[lo, hi]` at which the pattern matches. */
  ghost predicate LowestMatch(t: Target, pattern: seq<byte>, mask: string, lo: nat, hi: nat, r: nat) {
    && lo <= r <= hi
    && MatchAt(t, r, pattern, mask)
    && forall b :: lo <= b < r ==> !MatchAt(t, b, pattern, mask)
  }

  /** The start address `pattern_scan` uses: 0 stands for the main module's base. */
  function ScanStart(e: Engine, t: Target, startAddress: nat): (s: nat)
    ensures startAddress != 0 ==> s == startAddress
    ensures startAddress == 0 && IsAttached(e) && t.modules.Some? && |t.modules.value| > 0 ==> s == t.modules.value[0].base
    ensures startAddress == 0 && (!IsAttached(e) || t.modules.None? || |t.modules.value| == 0) ==> s == 0
  {
    if startAddress == 0 then
      EmptyQuerySelectsFirst(e, t);
      ModuleBase(e, t, "")
    else startAddress
  }

  /** The end address `pattern_scan` uses: 0 stands for the start plus the main module's size. */
  function ScanEnd(e: Engine, t: Target, startAddress: nat, endAddress: nat): (s: nat)
    ensures endAddress != 0 ==> s == endAddress
    ensures endAddress == 0 ==> s == ScanStart(e, t, startAddress) + ModuleSize(e, t, "")
    ensures endAddress == 0 && startAddress == 0 && IsAttached(e) && t.modules.Some? && |t.modules.value| > 0 ==>
              s == t.modules.value[0].base + t.modules.value[0].size
  {
    if endAddress == 0 then ScanStart(e, t, startAddress) + ModuleSize(e, t, "") else endAddress
  }

  /** The chunk loop of `pattern_scan` from `addr` on looks at position `a`: some chunk at
      or after `addr` was read successfully and `a` is one of its offsets at which the
      whole pattern (of length `p`) fits. */
  ghost predicate Examined(t: Target, p: nat, addr: nat, end: nat, a: nat)
    decreases end - addr
  {
    if p >= ChunkSize || addr + p >= end then false
    else
      var readSize := Min(ChunkSize, end - addr);
      (Readable(t, addr, addr + readSize) && addr <= a <= addr + readSize - p)
      || Examined(t, p, addr + ChunkSize - p, end, a)
  }

  /** Positions examined from `addr` on lie at or after `addr`, and the whole pattern
      fits before `end`. */
  lemma {:induction false} ExaminedWithin(t: Target, p: nat, addr: nat, end: nat)
    decreases end - addr
    ensures forall a: nat :: Examined(t, p, addr, end, a) ==> addr <= a && a + p <= end
  {
    if p < ChunkSize && addr + p < end {
      ExaminedWithin(t, p, addr + ChunkSize - p, end);
    }
  }

  /** Chunk coverage: when every byte of `[addr, end)` is readable, the chunk loop from
      `addr` examines exactly the positions `addr .. end - p`, provided `addr + p < end`,
      and nothing otherwise. Each chunk begins at the last position the previous one
      examined, so the union of the chunks leaves no gap. */
  lemma {:induction false} ChunksCoverRange(t: Target, p: nat, addr: nat, end: nat)
    requires p < ChunkSize
    requires Readable(t, addr, end)
    decreases end - addr
    ensures forall a: nat :: Examined(t, p, addr, end, a) <==> addr + p < end && addr <= a <= end - p
  {
    if addr + p < end {
      var next := addr + ChunkSize - p;
      var readSize := Min(ChunkSize, end - addr);
      assert Readable(t, addr, addr + readSize);
      ChunksCoverRange(t, p, next, end);
      if end - addr <= ChunkSize {
        assert next + p >= end;
      } else {
        assert readSize == ChunkSize && addr + readSize - p == next;
      }
    }
  }

  /** The pattern is found at the first examined position where it matches. */
  ghost predicate FirstHit(t: Target, pattern: seq<byte>, mask: string, start: nat, end: nat, r: nat) {
    && Examined(t, |pattern|, start, end, r)
    && MatchAt(t, r, pattern, mask)
    && forall b: nat :: Examined(t, |pattern|, start, end, b) && b < r ==> !MatchAt(t, b, pattern, mask)
  }

  /** No examined position matches. */
  ghost predicate NoHit(t: Target, pattern: seq<byte>, mask: string, start: nat, end: nat) {
    forall a: nat :: Examined(t, |pattern|, start, end, a) ==> !MatchAt(t, a, pattern, mask)
  }

  /** Comparing inside a chunk buffer is comparing the target's memory. */
  lemma BufferMatch(t: Target, addr: nat, buffer: seq<byte>, i: nat, pattern: seq<byte>, mask: string)
    requires i + CompareLength(pattern, mask) <= |buffer|
    requires CopiedFrom(t, addr, buffer)
    ensures Matches(buffer[i..], pattern, mask) <==> MatchAt(t, addr + i, pattern, mask)
  {
    forall k | 0 <= k < CompareLength(pattern, mask)
      ensures buffer[i..][k] == buffer[i + k] && addr + i + k in t.mem && buffer[i + k] == t.mem[addr + i + k]
    {
    }
  }

  /** The loop invariant of `pattern_scan` at chunk address `addr`: the positions still
      to come are examined positions, and every examined match is still to come. */
  ghost predicate ScanInvariant(t: Target, pattern: seq<byte>, mask: string, start: nat, addr: nat, end: nat) {
    && start <= addr
    && (forall a: nat :: Examined(t, |pattern|, addr, end, a) ==> Examined(t, |pattern|, start, end, a))
    && (forall a: nat :: Examined(t, |pattern|, start, end, a) && MatchAt(t, a, pattern, mask) ==> Examined(t, |pattern|, addr, end, a))
  }

  /** Moving to the next chunk keeps the invariant once no offset of the current chunk
      matched, or the chunk could not be read. */
  lemma AdvanceChunk(t: Target, pattern: seq<byte>, mask: string, start: nat, addr: nat, end: nat)
    requires |pattern| < ChunkSize && addr + |pattern| < end
    requires ScanInvariant(t, pattern, mask, start, addr, end)
    requires var readSize := Min(ChunkSize, end - addr);
             Readable(t, addr, addr + readSize) ==>
               forall a :: addr <= a <= addr + readSize - |pattern| ==> !MatchAt(t, a, pattern, mask)
    ensures ScanInvariant(t, pattern, mask, start, addr + ChunkSize - |pattern|, end)
  {
  }

  /** A match at offset `i` of a readable chunk, after offsets `0 .. i - 1` failed, is
      the first hit of the whole scan, so returning it meets `ScanSpec`. */
  lemma HitIsFirst(t: Target, pattern: seq<byte>, mask: string, start: nat, addr: nat, end: nat, i: nat)
    requires |pattern| < ChunkSize && addr + |pattern| < end
    requires ScanInvariant(t, pattern, mask, start, addr, end)
    requires Readable(t, addr, addr + Min(ChunkSize, end - addr))
    requires i <= Min(ChunkSize, end - addr) - |pattern|
    requires MatchAt(t, addr + i, pattern, mask)
    requires forall a :: addr <= a < addr + i ==> !MatchAt(t, a, pattern, mask)
    ensures FirstHit(t, pattern, mask, start, end, addr + i)
    ensures ScanSpec(t, pattern, mask, start, end, addr + i)
  {
    var next := addr + ChunkSize - |pattern|;
    ExaminedWithin(t, |pattern|, next, end);
    assert Examined(t, |pattern|, addr, end, addr + i);
    forall b: nat | Examined(t, |pattern|, start, end, b) && b < addr + i
      ensures !MatchAt(t, b, pattern, mask)
    {
      if MatchAt(t, b, pattern, mask) {
        assert Examined(t, |pattern|, addr, end, b);
        assert !Examined(t, |pattern|, next, end, b);
        assert false;
      }
    }
    ScanResultInRange(t, pattern, mask, start, end, addr + i);
  }

  /** When the loop guard fails, no examined position is still to come, so returning 0
      meets `ScanSpec`. */
  lemma LoopExit(t: Target, pattern: seq<byte>, mask: string, start: nat, addr: nat, end: nat)
    requires |pattern| < ChunkSize && end >= |pattern|
    requires addr + |pattern| >= end
    requires ScanInvariant(t, pattern, mask, start, addr, end)
    ensures NoHit(t, pattern, mask, start, end)
    ensures ScanSpec(t, pattern, mask, start, end, 0)
  {
    ScanResultInRange(t, pattern, mask, start, end, 0);
  }

  /** What the first-hit description of the scan says about the requested range: with
      every byte readable it is the lowest match, and a range of at most `p` bytes
      yields 0. */
  lemma ScanResultInRange(t: Target, pattern: seq<byte>, mask: string, start: nat, end: nat, r: nat)
    requires |pattern| < ChunkSize && end >= |pattern|
    requires FirstHit(t, pattern, mask, start, end, r) || (r == 0 && NoHit(t, pattern, mask, start, end))
    ensures start + |pattern| >= end ==> r == 0
    ensures Readable(t, start, end) && start + |pattern| < end ==>
              LowestMatch(t, pattern, mask, start, end - |pattern|, r)
              || (r == 0 && forall a :: start <= a <= end - |pattern| ==> !MatchAt(t, a, pattern, mask))
  {
    if Readable(t, start, end) {
      ChunksCoverRange(t, |pattern|, start, end);
    }
  }

  /** The inner loop of `pattern_scan`: tries every offset `i` of a chunk read from `addr`
      at which the whole pattern fits, `0 <= i <= |buffer| - p`, and stops at the first
      match. */
  method FindInChunk(t: Target, addr: nat, buffer: seq<byte>, pattern: seq<byte>, mask: string)
      returns (found: bool, i: nat)
    requires |pattern| < |buffer|
    requires CopiedFrom(t, addr, buffer)
    ensures found ==> i <= |buffer| - |pattern| && MatchAt(t, addr + i, pattern, mask) && addr + i in t.mem
    ensures found ==> forall a :: addr <= a < addr + i ==> !MatchAt(t, a, pattern, mask)
    ensures !found ==> forall a :: addr <= a <= addr + |buffer| - |pattern| ==> !MatchAt(t, a, pattern, mask)
  {
    i := 0;
    while i <= |buffer| - |pattern|
      invariant 0 <= i <= |buffer| - |pattern| + 1
      invariant forall a :: addr <= a < addr + i ==> !MatchAt(t, a, pattern, mask)
    {
      var hit := PatternCompare(buffer[i..], pattern, mask);
      BufferMatch(t, addr, buffer, i, pattern, mask);
      if hit {
        assert i < |buffer| by {
          if |pattern| == 0 && i > 0 {
            assert MatchAt(t, addr, pattern, mask);
          }
        }
        ghost var copied := buffer[i];  // the term that instantiates `CopiedFrom` at `i`
        return true, i;
      }
      i := i + 1;
    }
    return false, i;
  }

  /** Everything `pattern_scan` promises about its result `r` for the range `[start, end)`:
      it is the first examined position where the pattern matches, or 0 when there is
      none; with the whole range readable that is the lowest matching address of
      `[start, end - p]`, provided `start + p < end`; a range of at most `p` bytes gives 0. */
  ghost predicate ScanSpec(t: Target, pattern: seq<byte>, mask: string, start: nat, end: nat, r: nat) {
    && (FirstHit(t, pattern, mask, start, end, r) || (r == 0 && NoHit(t, pattern, mask, start, end)))
    && (start + |pattern| >= end ==> r == 0)
    && (Readable(t, start, end) && start + |pattern| < end ==>
          LowestMatch(t, pattern, mask, start, end - |pattern|, r)
          || (r == 0 && forall a :: start <= a <= end - |pattern| ==> !MatchAt(t, a, pattern, mask)))
  }

  /** Moving the start up to just past a hit keeps the defaulted end at least as high:
      an end of 0 follows the start. */
  lemma EndFollowsStart(e: Engine, t: Target, current: nat, endAddress: nat, found: nat)
    requires found != 0 && ScanStart(e, t, current) <= found
    ensures ScanEnd(e, t, found + 1, endAddress) >= ScanEnd(e, t, current, endAddress)
  {
  }

  /** `pattern_scan`. When not attached it returns 0 without scanning; otherwise it meets
      `ScanSpec` for the defaulted range. A chunk whose read fails is skipped. */
  method PatternScan(e: Engine, t: Target, pattern: seq<byte>, mask: string,
                     startAddress: nat := 0, endAddress: nat := 0) returns (r: nat)
    requires IsAttached(e) ==> |pattern| < ChunkSize && ScanEnd(e, t, startAddress, endAddress) >= |pattern|
    ensures !IsAttached(e) ==> r == 0
    ensures IsAttached(e) ==> ScanSpec(t, pattern, mask, ScanStart(e, t, startAddress), ScanEnd(e, t, startAddress, endAddress), r)
    ensures r != 0 ==> r in t.mem && MatchAt(t, r, pattern, mask)
  {
    if !IsAttached(e) {
      return 0;
    }
    var start := ScanStart(e, t, startAddress);
    var end := ScanEnd(e, t, startAddress, endAddress);
    var p := |pattern|;
    var addr := start;
    while addr + p < end  // `addr < end_address - pattern_size` in `pattern_scan`
      invariant ScanInvariant(t, pattern, mask, start, addr, end)
      decreases end - addr
    {
      var readSize := Min(ChunkSize, end - addr);
      var buffer := ReadMemory(e, t, addr, readSize);
      if buffer.Some? {
        var found, i := FindInChunk(t, addr, buffer.value, pattern, mask);
        if found {
          HitIsFirst(t, pattern, mask, start, addr, end, i);
          return addr + i;
        }
      }
      AdvanceChunk(t, pattern, mask, start, addr, end);
      addr := addr + ChunkSize - p;
    }
    LoopExit(t, pattern, mask, start, addr, end);
    return 0;
  }

  /** An upper bound on a finite set of addresses. */
  ghost function AddressBound(s: set<nat>): (b: nat)
    decreases s
    ensures forall x :: x in s ==> x < b
  {
    if s == {} then 0
    else
      var x :| x in s;
      var b := AddressBound(s - {x});
      assert forall y :: y in s ==> y == x || y in s - {x};
      if x < b then b else x + 1
  }

  /** The case in which `pattern_scan_all` reports every match: attached, an explicit
      end, a nonzero start and a readable range. */
  ghost predicate ScanAllComplete(e: Engine, t: Target, startAddress: nat, endAddress: nat) {
    && IsAttached(e) && endAddress != 0 && ScanStart(e, t, startAddress) != 0
    && Readable(t, ScanStart(e, t, startAddress), endAddress)
  }

  /** The loop invariant of `pattern_scan_all`: `current` is the next start and `results`
      the addresses found so far, in increasing order, each one a match; in the complete
      case every match below the next scan's start has been reported. */
  ghost predicate ScanAllInvariant(e: Engine, t: Target, pattern: seq<byte>, mask: string,
                                   startAddress: nat, endAddress: nat, current: nat, results: seq<nat>) {
    var first := ScanStart(e, t, startAddress);
    && (|results| == 0 ==> current == startAddress)
    && (|results| > 0 ==> current == results[|results| - 1] + 1 && first < current)
    && (!IsAttached(e) ==> results == [])
    && (IsAttached(e) ==> ScanEnd(e, t, current, endAddress) >= |pattern|)
    && (forall i, j :: 0 <= i < j < |results| ==> results[i] < results[j])
    && (forall i :: 0 <= i < |results| ==>
          results[i] != 0 && first <= results[i] && MatchAt(t, results[i], pattern, mask))
    && (endAddress != 0 ==> forall i :: 0 <= i < |results| ==> results[i] + |pattern| <= endAddress)
    && (ScanAllComplete(e, t, startAddress, endAddress) ==>
          forall a :: first <= a < ScanStart(e, t, current) && a + |pattern| < endAddress && MatchAt(t, a, pattern, mask) ==>
            a in results)
  }

  /** One round of `pattern_scan_all` that found `found`: recording it and restarting one
      past it keeps the invariant, and the start moves up. */
  lemma ScanAllStep(e: Engine, t: Target, pattern: seq<byte>, mask: string,
                    startAddress: nat, endAddress: nat, current: nat, results: seq<nat>, found: nat)
    requires ScanAllInvariant(e, t, pattern, mask, startAddress, endAddress, current, results)
    requires IsAttached(e) && found != 0
    requires ScanSpec(t, pattern, mask, ScanStart(e, t, current), ScanEnd(e, t, current, endAddress), found)
    ensures ScanAllInvariant(e, t, pattern, mask, startAddress, endAddress, found + 1, results + [found])
    ensures current <= found
  {
    ExaminedWithin(t, |pattern|, ScanStart(e, t, current), ScanEnd(e, t, current, endAddress));
    EndFollowsStart(e, t, current, endAddress, found);
  }

  /** The round of `pattern_scan_all` that finds nothing: the results collected so far
      meet the contract of `pattern_scan_all`. */
  lemma ScanAllExit(e: Engine, t: Target, pattern: seq<byte>, mask: string,
                    startAddress: nat, endAddress: nat, current: nat, results: seq<nat>)
    requires ScanAllInvariant(e, t, pattern, mask, startAddress, endAddress, current, results)
    requires IsAttached(e) ==> ScanSpec(t, pattern, mask, ScanStart(e, t, current), ScanEnd(e, t, current, endAddress), 0)
    ensures !IsAttached(e) ==> results == []
    ensures forall i, j :: 0 <= i < j < |results| ==> results[i] < results[j]
    ensures forall i :: 0 <= i < |results| ==>
              && results[i] != 0
              && ScanStart(e, t, startAddress) <= results[i]
              && MatchAt(t, results[i], pattern, mask)
    ensures endAddress != 0 ==> forall i :: 0 <= i < |results| ==> results[i] + |pattern| <= endAddress
    ensures IsAttached(e) && endAddress != 0 && ScanStart(e, t, startAddress) != 0
            && Readable(t, ScanStart(e, t, startAddress), endAddress) ==>
              forall a :: ScanStart(e, t, startAddress) <= a && a + |pattern| < endAddress && MatchAt(t, a, pattern, mask) ==>
                a in results
  {
  }

  /** `pattern_scan_all`: repeats `pattern_scan` from one past each address found, with
      the same `endAddress` (so 0 recomputes the end from each new start), until it
      returns 0. Overlapping occurrences are all reported. The loop ends because every
      address found is readable, and the target has finitely many readable addresses. */
  method PatternScanAll(e: Engine, t: Target, pattern: seq<byte>, mask: string,
                        startAddress: nat := 0, endAddress: nat := 0) returns (results: seq<nat>)
    requires IsAttached(e) ==> |pattern| < ChunkSize && ScanEnd(e, t, startAddress, endAddress) >= |pattern|
    ensures !IsAttached(e) ==> results == []
    ensures forall i, j :: 0 <= i < j < |results| ==> results[i] < results[j]
    ensures forall i :: 0 <= i < |results| ==>
              && results[i] != 0
              && ScanStart(e, t, startAddress) <= results[i]
              && MatchAt(t, results[i], pattern, mask)
    ensures endAddress != 0 ==> forall i :: 0 <= i < |results| ==> results[i] + |pattern| <= endAddress
    ensures IsAttached(e) && endAddress != 0 && ScanStart(e, t, startAddress) != 0
            && Readable(t, ScanStart(e, t, startAddress), endAddress) ==>
              forall a :: ScanStart(e, t, startAddress) <= a && a + |pattern| < endAddress && MatchAt(t, a, pattern, mask) ==>
                a in results
  {
    ghost var bound := AddressBound(t.mem.Keys);
    results := [];
    var current := startAddress;
    while true
      invariant ScanAllInvariant(e, t, pattern, mask, startAddress, endAddress, current, results)
      decreases bound as int + 1 - current as int
    {
      var found := PatternScan(e, t, pattern, mask, current, endAddress);
      if found == 0 {
        ScanAllExit(e, t, pattern, mask, startAddress, endAddress, current, results);
        return;
      }
      ScanAllStep(e, t, pattern, mask, startAddress, endAddress, current, results, found);
      results := results + [found];
      current := found + 1;
    }
  }

}

=== FILE: session.dfy ===
/** The attach session of `c_memory`: the process handle and id the object keeps,
    how `attach_to_process`, `close_process` and the destructor change them, and the
    handles the object owns in the controlling process. */
module Session {
  import opened Win
  import opened Snapshot

  /** One `PROCESSENTRY32`: `szExeFile` and `th32ProcessID`. */
  datatype ProcessEntry = ProcessEntry(exeFile: string, pid: nat)

  /** The controlling side of the operating system:
      - `processes`: the process snapshot in walk order; `None` when it cannot be taken;
      - `openable`: the handle `OpenProcess(PROCESS_ALL_ACCESS, FALSE, pid)` returns, `0` (null) when absent;
      - `owned`: the process handles this object has opened and not yet closed. */
  datatype Os = Os(processes: Option<seq<ProcessEntry>>, openable: map<nat, nat>, owned: multiset<nat>)

  /** The `c_memory` object: `process_handle_` (0 is null) and `process_id_`. */
  datatype Engine = Engine(handle: nat, pid: nat)

  datatype World = World(engine: Engine, os: Os)

  /** Result of an attach: whether it succeeded and the world afterwards. */
  datatype Outcome = Outcome(ok: bool, world: World)

  /** `is_attached()`: the handle is not null. */
  predicate IsAttached(e: Engine) {
    e.handle != 0
  }

  /** A detached object holds no process id. */
  predicate Consistent(e: Engine) {
    e.handle == 0 ==> e.pid == 0
  }

  /** The object owns exactly its current handle and nothing else: no handle leaks. */
  predicate OwnsExactly(w: World) {
    w.os.owned == if w.engine.handle != 0 then multiset{w.engine.handle} else multiset{}
  }

  /** While the object owns exactly its handle, `is_attached()` says whether it holds
      an open handle: when attached it owns that one handle, and when detached it owns
      none. */
  lemma AttachedOwnsHandle(w: World)
    requires OwnsExactly(w)
    ensures IsAttached(w.engine) <==> |w.os.owned| == 1
    ensures IsAttached(w.engine) ==> w.engine.handle in w.os.owned
    ensures !IsAttached(w.engine) ==> w.os.owned == multiset{}
  {
  }

  /** The constructor: null handle, process id 0. */
  function New(): (e: Engine)
    ensures !IsAttached(e) && e.pid == 0
  {
    Engine(0, 0)
  }

  /** `OpenProcess`: the handle the OS grants for `pid`, or 0 when it refuses. */
  function OpenProcess(os: Os, pid: nat): (h: nat)
    ensures h != 0 ==> pid in os.openable && os.openable[pid] == h
    ensures pid !in os.openable ==> h == 0
  {
    if pid in os.openable then os.openable[pid] else 0
  }

  /** `close_process`: closes the handle if there is one and forgets the process id. */
  function CloseProcess(w: World): (r: World)
    ensures !IsAttached(r.engine)
    ensures IsAttached(w.engine) ==> r.engine.pid == 0
    ensures Consistent(w.engine) ==> r.engine == New()
    ensures !IsAttached(w.engine) ==> r == w
    ensures r.os.processes == w.os.processes && r.os.openable == w.os.openable
    ensures OwnsExactly(w) ==> OwnsExactly(r) && r.os.owned == multiset{}
  {
    if w.engine.handle != 0 then
      World(Engine(0, 0), w.os.(owned := w.os.owned - multiset{w.engine.handle}))
    else w
  }

  /** The destructor runs `close_process`. */
  function Destroy(w: World): (r: Os)
    ensures OwnsExactly(w) ==> r.owned == multiset{}
    ensures r.owned <= w.os.owned
  {
    CloseProcess(w).os
  }

  /** `attach_to_process(DWORD)`: close any current session, then open `pid`. */
  function AttachToProcess(w: World, pid: nat): (r: Outcome)
    ensures r.ok <==> OpenProcess(w.os, pid) != 0
    ensures r.ok <==> IsAttached(r.world.engine)
    ensures r.ok ==> r.world.engine == Engine(OpenProcess(w.os, pid), pid)
    ensures !r.ok ==> r.world == CloseProcess(w)
    ensures Consistent(w.engine) ==> Consistent(r.world.engine)
    ensures OwnsExactly(w) ==> OwnsExactly(r.world)
    ensures r.world.os.processes == w.os.processes && r.world.os.openable == w.os.openable
  {
    var closed := CloseProcess(w);
    var handle := OpenProcess(closed.os, pid);
    if handle == 0 then Outcome(false, closed)
    else Outcome(true, World(Engine(handle, pid), closed.os.(owned := closed.os.owned + multiset{handle})))
  }

  /** `find_process_id`: the id of the first snapshot entry whose executable name equals
      `name` up to case; 0 when none does or the snapshot fails. */
  function FindProcessId(os: Os, name: string): (pid: nat)
    ensures os.processes.None? ==> pid == 0
    ensures os.processes.Some? ==> forall j :: IsFirstProcess(os.processes.value, name, j) ==> pid == os.processes.value[j].pid
    ensures os.processes.Some? && (forall j :: 0 <= j < |os.processes.value| ==> !SameName(os.processes.value[j].exeFile, name)) ==> pid == 0
  {
    match os.processes
    case None => 0
    case Some(procs) =>
      match FirstWhere(procs, (p: ProcessEntry) => SameName(p.exeFile, name))
      case None => 0
      case Some(j) => procs[j].pid
  }

  /** Entry `j` is the first one in walk order whose executable name matches `name`. */
  ghost predicate IsFirstProcess(procs: seq<ProcessEntry>, name: string, j: int) {
    && 0 <= j < |procs|
    && SameName(procs[j].exeFile, name)
    && forall i :: 0 <= i < j ==> !SameName(procs[i].exeFile, name)
  }

  /** `attach_to_process(const std::string&)`: resolve the name, then attach by id.
      A name that resolves to 0 fails before `close_process` runs. */
  function AttachToProcessByName(w: World, name: string): (r: Outcome)
    ensures FindProcessId(w.os, name) == 0 ==> !r.ok && r.world == w
    ensures r.ok <==> FindProcessId(w.os, name) != 0 && OpenProcess(w.os, FindProcessId(w.os, name)) != 0
    ensures FindProcessId(w.os, name) != 0 ==> r == AttachToProcess(w, FindProcessId(w.os, name))
    ensures FindProcessId(w.os, name) != 0 && !r.ok ==> r.world == CloseProcess(w)
    ensures r.ok ==> (w.os.processes.Some? &&
              exists j :: IsFirstProcess(w.os.processes.value, name, j) && r.world.engine.pid == w.os.processes.value[j].pid)
    ensures r.ok ==> IsAttached(r.world.engine)
    ensures Consistent(w.engine) ==> Consistent(r.world.engine)
    ensures OwnsExactly(w) ==> OwnsExactly(r.world)
  {
    var pid := FindProcessId(w.os, name);
    if pid == 0 then Outcome(false, w) else AttachToProcess(w, pid)
  }

  /** `close_process` is idempotent. */
  lemma CloseIsIdempotent(w: World)
    ensures CloseProcess(CloseProcess(w)) == CloseProcess(w)
  {
  }

  /** A session that starts from a fresh object and owns nothing keeps owning exactly its
      handle through any sequence of attaches by id, and the destructor leaves nothing open. */
  lemma {:induction false} NoHandleLeaks(os: Os, pids: seq<nat>)
    requires os.owned == multiset{}
    ensures OwnsExactly(AttachAll(World(New(), os), pids))
    ensures Destroy(AttachAll(World(New(), os), pids)).owned == multiset{}
  {
    AttachAllKeepsOwnership(World(New(), os), pids);
  }

  /** Attach to each id of `pids` in turn, whatever the outcomes. */
  function AttachAll(w: World, pids: seq<nat>): World
    decreases |pids|
  {
    if |pids| == 0 then w else AttachAll(AttachToProcess(w, pids[0]).world, pids[1..])
  }

  lemma {:induction false} AttachAllKeepsOwnership(w: World, pids: seq<nat>)
    requires OwnsExactly(w)
    decreases |pids|
    ensures OwnsExactly(AttachAll(w, pids))
  {
    if |pids| > 0 {
      AttachAllKeepsOwnership(AttachToProcess(w, pids[0]).world, pids[1..]);
    }
  }
}

=== FILE: snapshot.dfy ===
/** Walking a Toolhelp snapshot: the `...32First` / `...32Next` loops of the engine stop
    at the first entry that satisfies a test. Names are compared after `::tolower`
    in the "C" locale, so only the ASCII letters 'A'..'Z' are folded. */
module Snapshot {
  import opened Win

  /** `::tolower` in the "C" locale. */
  function ToLower(c: char): char {
    if 'A' <= c <= 'Z' then (c as int + 32) as char else c
  }

  function Lowercase(s: string): string {
    seq(|s|, i requires 0 <= i < |s| => ToLower(s[i]))
  }

  /** The engine's name test: both sides lowered with `std::transform(..., ::tolower)`,
      then compared with `==`. */
  predicate SameName(a: string, b: string) {
    Lowercase(a) == Lowercase(b)
  }

  /** Index of the first entry at or after `from` that passes `test`, as the
      do/while walk over a snapshot finds it; `None` when the walk runs off the end. */
  function FirstWhere<T>(entries: seq<T>, test: T -> bool, from: nat := 0): (r: Option<nat>)
    requires from <= |entries|
    decreases |entries| - from
    ensures r.Some? ==> from <= r.value < |entries| && test(entries[r.value])
    ensures r.Some? ==> forall j :: from <= j < r.value ==> !test(entries[j])
    ensures r.None? ==> forall j :: from <= j < |entries| ==> !test(entries[j])
  {
    if from == |entries| then None
    else if test(entries[from]) then Some(from)
    else FirstWhere(entries, test, from + 1)
  }

  /** Lowering never changes length, so only the empty name lowers to the empty name. */
  lemma EmptyOnlyLowersToEmpty(s: string)
    ensures Lowercase(s) == [] <==> s == []
  {
    assert |Lowercase(s)| == |s|;
  }
}

=== FILE: target.dfy ===
/** The target process as the engine can observe it, and the operating-system calls
    on it as oracles: each call either succeeds with what this state says or fails. */
module TargetProcess {
  import opened Win

  /** What `VirtualQueryEx` reports for one address: `State` and `Protect`. */
  datatype PageInfo = PageInfo(state: Dword, protect: Dword)

  /** One `MODULEENTRY32`: `szModule`, `modBaseAddr`, `modBaseSize`. */
  datatype ModuleEntry = ModuleEntry(name: string, base: nat, size: nat)

  /** A live `VirtualAllocEx` allocation: its size and the flags it was made with. */
  datatype Allocation = Allocation(size: nat, allocationType: Dword, protection: Dword)

  datatype Target = Target(
    mem: map<nat, byte>,                // the bytes ReadProcessMemory can copy out
    writable: set<nat>,                 // the addresses WriteProcessMemory can copy into
    pages: map<nat, PageInfo>,          // addresses VirtualQueryEx answers for
    modules: Option<seq<ModuleEntry>>,  // module snapshot in walk order; None: snapshot fails
    allocations: map<nat, Allocation>)  // live allocations by base address

  /** Every address of `[lo, hi)` can be read. */
  predicate Readable(t: Target, lo: nat, hi: nat) {
    forall a :: lo <= a < hi ==> a in t.mem
  }

  /** Every address of `[lo, hi)` can be written. */
  predicate Writable(t: Target, lo: nat, hi: nat) {
    forall a :: lo <= a < hi ==> a in t.writable
  }

  /** Every address of `[lo, hi)` is in a committed region. */
  predicate Committed(t: Target, lo: nat, hi: nat) {
    forall a :: lo <= a < hi ==> a in t.pages && t.pages[a].state == MemCommit
  }

  /** `data` is a copy of the target's bytes from `addr` on. */
  predicate CopiedFrom(t: Target, addr: nat, data: seq<byte>) {
    forall k :: 0 <= k < |data| ==> addr + k in t.mem && data[k] == t.mem[addr + k]
  }

  /** How many bytes of `[addr, addr + n)`, counted from `addr`, a copy gets through
      before the first inaccessible address. */
  function AccessiblePrefix(s: set<nat>, addr: nat, n: nat): (k: nat)
    decreases n
    ensures k <= n
    ensures forall a :: addr <= a < addr + k ==> a in s
    ensures k < n ==> addr + k !in s
    ensures k == n <==> forall a :: addr <= a < addr + n ==> a in s
  {
    if n == 0 || addr !in s then 0 else 1 + AccessiblePrefix(s, addr + 1, n - 1)
  }

  /** Result of a cross-process copy: the OS status and the bytes that moved. */
  datatype Copied = Copied(ok: bool, data: seq<byte>)

  /** `ReadProcessMemory`: copies the readable prefix of `[addr, addr + size)` and
      reports success only when the whole range was copied. */
  function ReadProcessMemory(t: Target, addr: nat, size: nat): (r: Copied)
    ensures |r.data| <= size
    ensures r.ok <==> |r.data| == size
    ensures r.ok <==> Readable(t, addr, addr + size)
    ensures CopiedFrom(t, addr, r.data)
  {
    var k := AccessiblePrefix(t.mem.Keys, addr, size);
    Copied(k == size, seq(k, i requires 0 <= i < k => t.mem[addr + i]))
  }

  /** Result of `WriteProcessMemory`: status, bytes written, and the target afterwards. */
  datatype Written = Written(ok: bool, count: nat, target: Target)

  /** `WriteProcessMemory`: stores the writable prefix of `data` at `addr`; success only
      when all of it was stored. Written pages are readable: Windows has no write-only pages. */
  function WriteProcessMemory(t: Target, addr: nat, data: seq<byte>): (r: Written)
    ensures r.count <= |data|
    ensures r.ok <==> r.count == |data|
    ensures r.ok <==> Writable(t, addr, addr + |data|)
    ensures forall a :: addr <= a < addr + r.count ==> a in r.target.mem && r.target.mem[a] == data[a - addr]
    ensures forall a :: a < addr || addr + |data| <= a ==>
              (a in r.target.mem <==> a in t.mem) && (a in t.mem ==> r.target.mem[a] == t.mem[a])
    ensures r.target == t.(mem := r.target.mem)
  {
    var k := AccessiblePrefix(t.writable, addr, |data|);
    var mem := Store(t.mem, addr, data[..k]);
    Written(k == |data|, k, t.(mem := mem))
  }

  /** `mem` with `data` stored from `addr` on, everything else as it was. */
  function Store(mem: map<nat, byte>, addr: nat, data: seq<byte>): (r: map<nat, byte>)
    decreases |data|
    ensures forall a :: addr <= a < addr + |data| ==> a in r && r[a] == data[a - addr]
    ensures forall a :: a < addr || addr + |data| <= a ==> (a in r <==> a in mem) && (a in mem ==> r[a] == mem[a])
  {
    if |data| == 0 then mem
    else Store(mem[addr := data[0]], addr + 1, data[1..])
  }

  /** `VirtualQueryEx`: region information for an address, if the OS answers. */
  function VirtualQueryEx(t: Target, addr: nat): (r: Option<PageInfo>)
    ensures r.Some? <==> addr in t.pages
    ensures r.Some? ==> r.value == t.pages[addr]
  {
    if addr in t.pages then Some(t.pages[addr]) else None
  }

  /** Result of `VirtualProtectEx`: the previous protection on success. */
  datatype Protected = Protected(previous: Option<Dword>, target: Target)

  /** `VirtualProtectEx`: succeeds when `addr` and every address of `[addr, addr + size)`
      are committed; then reports the protection `addr` had, sets `newProtection` on the
      whole range, and the range becomes writable exactly when `newProtection` allows
      writing. */
  function VirtualProtectEx(t: Target, addr: nat, size: nat, newProtection: Dword): (r: Protected)
    ensures r.previous.Some? <==> Committed(t, addr, addr + if size == 0 then 1 else size)
    ensures r.previous.Some? ==> addr in t.pages && r.previous.value == t.pages[addr].protect
    ensures r.previous.None? ==> r.target == t
    ensures r.target == t.(pages := r.target.pages, writable := r.target.writable)
    ensures r.target.pages.Keys == t.pages.Keys
    ensures forall a :: a in t.pages ==> r.target.pages[a].state == t.pages[a].state
    ensures r.previous.Some? ==> forall a :: addr <= a < addr + size ==>
              r.target.pages[a].protect == newProtection && (a in r.target.writable <==> AllowsWrite(newProtection))
    ensures forall a :: a < addr || addr + size <= a ==>
              (a in t.pages ==> r.target.pages[a] == t.pages[a]) && (a in r.target.writable <==> a in t.writable)
  {
    if Committed(t, addr, addr + if size == 0 then 1 else size) then
      var span := Span(addr, addr + size);
      var pages := map a | a in t.pages ::
        if a in span then t.pages[a].(protect := newProtection) else t.pages[a];
      var writable := if AllowsWrite(newProtection) then t.writable + span else t.writable - span;
      Protected(Some(t.pages[addr].protect), t.(pages := pages, writable := writable))
    else
      Protected(None, t)
  }

  /** The addresses `[lo, hi)`. */
  function Span(lo: nat, hi: nat): (s: set<nat>)
    decreases hi - lo
    ensures forall a :: a in s <==> lo <= a < hi
  {
    if hi <= lo then {} else {lo} + Span(lo + 1, hi)
  }

  /** No address of `[lo, hi)` lies in a reserved or committed region. */
  predicate Unallocated(t: Target, lo: nat, hi: nat) {
    forall a :: lo <= a < hi ==> a !in t.pages || t.pages[a].state == MemFree
  }

  /** Every address of `[lo, hi)` is free address space that can be neither read nor
      written, as a release leaves it. */
  predicate Released(t: Target, lo: nat, hi: nat) {
    forall a :: lo <= a < hi ==>
      a in t.pages && t.pages[a] == PageInfo(MemFree, 0) && a !in t.mem && a !in t.writable
  }

  /** Outside `[lo, hi)` the two targets agree on pages, bytes and writability. */
  ghost predicate SameOutside(t: Target, u: Target, lo: nat, hi: nat) {
    forall a :: a < lo || hi <= a ==>
      && (a in u.pages <==> a in t.pages) && (a in t.pages ==> u.pages[a] == t.pages[a])
      && (a in u.mem <==> a in t.mem) && (a in t.mem ==> u.mem[a] == t.mem[a])
      && (a in u.writable <==> a in t.writable)
  }

  /** Two targets that agree outside a range, over which both are released address
      space, hold the same memory, pages and write permissions. */
  lemma ReleasedAgainIsSame(t: Target, u: Target, lo: nat, hi: nat)
    requires SameOutside(t, u, lo, hi) && Released(t, lo, hi) && Released(u, lo, hi)
    requires u.modules == t.modules && u.allocations == t.allocations
    ensures u == t
  {
    assert u.pages == t.pages;
    assert u.mem == t.mem;
    assert u.writable == t.writable;
  }

  /** Recording an allocation at a fresh base and then dropping it gives the table back. */
  lemma RecordThenDrop(m: map<nat, Allocation>, base: nat, a: Allocation)
    requires base !in m
    ensures m[base := a] - {base} == m
  {
  }

  /** Three steps that each agree outside a range agree, end to end, outside it. */
  lemma SameOutsideChain(t: Target, u: Target, v: Target, w: Target, lo: nat, hi: nat)
    requires SameOutside(t, u, lo, hi) && SameOutside(u, v, lo, hi) && SameOutside(v, w, lo, hi)
    ensures SameOutside(t, w, lo, hi)
  {
    SameOutsideTransitive(t, u, v, lo, hi);
    SameOutsideTransitive(t, v, w, lo, hi);
  }

  /** Agreeing outside a range is transitive. */
  lemma SameOutsideTransitive(t: Target, u: Target, v: Target, lo: nat, hi: nat)
    requires SameOutside(t, u, lo, hi) && SameOutside(u, v, lo, hi)
    ensures SameOutside(t, v, lo, hi)
  {
  }

  /** Whether `protection` lets `ReadProcessMemory` read committed pages. */
  predicate AllowsRead(protection: Dword) {
    protection & ReadProtections != 0
  }

  /** Whether `protection` lets `WriteProcessMemory` write committed pages. */
  predicate AllowsWrite(protection: Dword) {
    protection & WriteProtections != 0
  }

  /** Whether `allocationType` commits the region (`MEM_COMMIT`) rather than only
      reserving it. */
  predicate Commits(allocationType: Dword) {
    allocationType & MemCommit != 0
  }

  /** `m` with every key of `span` mapped to `v`. */
  function Overlay<V>(m: map<nat, V>, span: set<nat>, v: V): (r: map<nat, V>)
    ensures forall a :: a in r <==> a in m || a in span
    ensures forall a :: a in span ==> r[a] == v
    ensures forall a :: a in m && a !in span ==> r[a] == m[a]
  {
    map a | a in m.Keys + span :: if a in span then v else m[a]
  }

  /** The effect of a successful `VirtualAllocEx` of `size` bytes at `base`: the region
      is recorded as an allocation; committed pages read as zeros and are readable and
      writable as `protection` allows, reserved pages are neither. */
  function VirtualAllocEx(t: Target, base: nat, size: nat, allocationType: Dword, protection: Dword): (r: Target)
    ensures r.allocations == t.allocations[base := Allocation(size, allocationType, protection)]
    ensures r.modules == t.modules
    ensures forall a :: base <= a < base + size ==>
              && a in r.pages
              && r.pages[a] == (if Commits(allocationType) then PageInfo(MemCommit, protection) else PageInfo(MemReserve, 0))
              && (a in r.mem <==> Commits(allocationType) && AllowsRead(protection))
              && (a in r.mem ==> r.mem[a] == 0)
              && (a in r.writable <==> Commits(allocationType) && AllowsWrite(protection))
    ensures SameOutside(t, r, base, base + size)
  {
    var span := Span(base, base + size);
    var commit := Commits(allocationType);
    var info := if commit then PageInfo(MemCommit, protection) else PageInfo(MemReserve, 0);
    var pages := Overlay(t.pages, span, info);
    var mem := if commit && AllowsRead(protection) then Overlay(t.mem, span, 0) else t.mem - span;
    var writable := if commit && AllowsWrite(protection) then t.writable + span else t.writable - span;
    Target(mem, writable, pages, t.modules, t.allocations[base := Allocation(size, allocationType, protection)])
  }

  /** The effect of `VirtualFreeEx` with `MEM_RELEASE` on the allocation at `base`: its
      whole region becomes free address space and the allocation is gone. */
  function VirtualFreeEx(t: Target, base: nat): (r: Target)
    requires base in t.allocations
    ensures r.allocations == t.allocations - {base}
    ensures r.modules == t.modules
    ensures Released(r, base, base + t.allocations[base].size)
    ensures SameOutside(t, r, base, base + t.allocations[base].size)
  {
    var span := Span(base, base + t.allocations[base].size);
    var pages := Overlay(t.pages, span, PageInfo(MemFree, 0));
    Target(t.mem - span, t.writable - span, pages, t.modules, t.allocations - {base})
  }
}

=== FILE: win.dfy ===
/** Vocabulary shared by the whole model: bytes, 32-bit flag words, an option type,
    and the Win32 constants the memory engine passes to or compares with the OS.
    Addresses and sizes (`uintptr_t`, `size_t`) are modelled as unbounded `nat`. */
module Win {

  /** One byte of target memory (`uint8_t`). */
  type byte = b: nat | b < 256

  /** A Win32 `DWORD` used as a set of flags or a protection constant. */
  type Dword = bv32

  datatype Option<T> = None | Some(value: T)

  /** `MEM_COMMIT`: the page state a committed region reports, and an allocation flag. */
  const MemCommit: Dword := 0x1000
  /** `MEM_RESERVE`. */
  const MemReserve: Dword := 0x2000
  /** `MEM_RELEASE`: the free type that releases a whole allocation. */
  const MemRelease: Dword := 0x8000
  /** `MEM_FREE`: the page state of unallocated address space. */
  const MemFree: Dword := 0x10000
  /** `PAGE_READWRITE`. */
  const PageReadWrite: Dword := 0x04
  /** `PAGE_EXECUTE`. */
  const PageExecute: Dword := 0x10
  /** `PAGE_EXECUTE_READ`. */
  const PageExecuteRead: Dword := 0x20
  /** `PAGE_EXECUTE_READWRITE`. */
  const PageExecuteReadWrite: Dword := 0x40
  /** The protections `ReadProcessMemory` reads through: every base protection but
      `PAGE_NOACCESS`. `PAGE_EXECUTE` counts as readable, as it is on x86 and x64, so
      every writable protection is also readable. */
  const ReadProtections: Dword := 0xFE
  /** The protections `WriteProcessMemory` writes through: every base protection but
      `PAGE_NOACCESS` and `PAGE_READONLY`. On `PAGE_EXECUTE` and `PAGE_EXECUTE_READ` pages
      it lifts the protection for the duration of the write. */
  const WriteProtections: Dword := 0xFC
}
